=== FILE: README.md ===
# geojson-vt-rs core in Dafny

A Dafny model of the vector-tiling core of `geojson-vt-rs`, a Rust port of
geojson-vt. The model has three connected parts.

- **Slab clipper** (`src/clip.rs`, with the point helpers of `src/types.rs`).
  It cuts points, multipoints, line strings, multi-line strings, polygons,
  multipolygons and geometry collections against the band `k1..k2` along the
  X axis (`I = 0`) or the Y axis (`I = 1`).
  - The line walk and the ring walk are six-way classifications of each
    segment's ends against the band.
  - The top-level `clip` short-cuts whole feature sets, and then single
    features, by their bounding boxes.
- **World wrap** (`src/wrap.rs`). Features reaching past the antimeridian
  margins are copied one world to the left or right.
  - `shift_coords` moves a copy's x coordinates and box.
  - `for_each_point` is imported by `wrap.rs` but defined nowhere. Here it is
    a recursive point map over the geometry datatype (`Types.ForEachPoint`).
- **Quadtree tile index** (`src/lib.rs`).
  - Option defaults and the `to_id` key packing.
  - `split_tile`: insert once, the stop rules, the four-child split, and
    clearing a split tile's sources.
  - `find_parent`, `get_tile` with its x wrap-around and drill-down, and
    `GeoJSONVT::new`.

Modelling choices:

- Coordinates are `real`. The clipper only compares and interpolates
  linearly.
- `calc_progress::<I>` and `intersect::<I>` are the `_x` pair for the X axis
  and the `_y` pair for the Y axis.
- The index is an immutable `Index` value. It is threaded through the
  `split_tile` recursion and its tile map is a Dafny `map`.
- `InternalTile::new` has no body in the source (`unimplemented!()`). It is
  a `Builder` function parameter that returns a tile's box and content.
- `EMPTY_TILE` is imported but not defined in `src/tile.rs`. It is modelled
  as a tile with no features and zero counts.

Behaviour of the code worth knowing:

- `VtFeature::new` returns a feature unconditionally (`src/types.rs:139-155`),
  so `clip` keeps every feature it clips, including one whose clipped
  geometry is empty (`src/clip.rs:400-428`).
- `process_geometry` grows the box and counts points only for a `Point`
  geometry (`src/types.rs:157-171`). It does not cover every contained point.
- `clip_multi_point`, `clip_line` and `clip_ring` use the closed band
  `k1 <= coord <= k2`. The feature-level tests of `clip` use the half-open
  `[k1, k2)`. Both are modelled as written.
- `get_tile` wraps x but not y. Over unbounded keys, a request with
  `y >= 2^z` finds neither the tile nor a parent and panics with "Parent
  tile not found" (proved as `TileIndex.RowOutsideGrid` and in
  `TileIndex.GetTile`). This holds in the source only while the key of the
  request fits in a u64. From zoom 28, a row `y >= 2^(59-z)` gives a key of
  2^64 or more, which wraps in a release build. `TileId.ToIdWrapsAtZoom28`
  shows such a key colliding with the key of row 0. `get_tile` can then
  return that row-0 tile instead of panicking.
- The last vertex of a line is dropped when the last segment comes from
  outside the band and ends exactly on k1 or k2 (`src/clip.rs:178-184`,
  `214-220`). Every other in-band vertex is kept (`SlabClip.ClipLineKeepsInBand`).
- A vertex that is not the last and is reached from outside the band exactly
  on k1 (from below) or k2 (from above) is pushed twice. The entering
  branch pushes it as `b` (`src/clip.rs:179-184`, `214-220`), and the next
  segment's in-band branch pushes it again as `a` (`src/clip.rs:222`). So a
  slice can repeat a point: by `ClipProps.ClipLineRepeatsEntry`, the line
  (0,0), (10,0), (20,0) clipped to 10 <= x <= 40 gives the one slice
  (10,0), (10,0), (20,0).
- After drilling down, `get_tile`'s second `find_parent` cannot fail,
  because the tile map only grows. That panic is unreachable (proved in
  `TileIndex.DrillDown`).

The modules:

- `Outcomes`: `Option`, and `Result` with the panics.
- `Seqs`: order-preserving sequence combinators.
- `Types`: the datatypes, the point helpers and `ForEachPoint`.
- `SlabClip`: the clipper.
- `ClipProps`: properties relating several clipper calls, and a worked
  15-vertex clipping example.
- `Wrap`: the world wrap.
- `TileId`: key packing, x wrap-around and ancestor keys.
- `TileIndex`: the index.

## Model

| member | source | states |
|---|---|---|
| Types.NewPointWithoutZ | src/types.rs:36-38 | the point keeps x and y and has importance z = 0 |
| Types.GetCoordinate | src/types.rs:46-56 | index 0 yields x, index 1 yields y, any other index panics |
| Types.GetCoordinate2D | src/types.rs:58-68 | the same rule for 2-D points: x, y, or a panic |
| Types.CalcProgressX | src/types.rs:71-73 | for a.x != b.x, t solves a.x + t(b.x - a.x) = x; it is 0 at a.x and 1 at b.x, and lies in [0, 1] for x between the ends |
| Types.CalcProgressY | src/types.rs:75-77 | the same for the y coordinate |
| Types.IntersectX | src/types.rs:80-83 | x is exactly the boundary value and z is 1; y is a's at t = 0, b's at t = 1, and between the ends for t in [0, 1] |
| Types.IntersectY | src/types.rs:85-88 | y is exactly the boundary value and z is 1; x behaves as IntersectX's y does |
| Types.IntersectAtEndpoints | src/types.rs:71-88 | intersecting at an endpoint's own coordinate reproduces that endpoint, with importance 1 |
| Types.NewFeature | src/types.rs:139-155 | geometry, properties and id are kept; a point geometry gives one point and the box spanned by the point and the origin (each corner is the point's coordinate or 0, and the box contains both); any other geometry gives 0 points and the default box |
| Types.ProcessGeometry | src/types.rs:157-171 | only a point geometry changes the feature: one more point, and each box corner grown to take in the point, every corner being either the old corner or the point's coordinate |
| Types.ForEachPoint | src/wrap.rs:8-11 | the geometry keeps its shape at every level: its kind, its number of parts, each line's distances and each ring's area, including the rings of every polygon of a multipolygon and, recursively, every member of a collection; a point becomes its image |
| Types.ForEachPointPoints | src/wrap.rs:8-11 | the points of the mapped geometry are the mapped points, in the same order and number |
| Types.ForEachPointInverse | src/wrap.rs:8-11 | mapping with f and then with a left inverse of f gives back the geometry |
| SlabClip.Cut | src/clip.rs:152-162 | the crossing lies exactly on the boundary value, has importance 1, and lies between the segment's ends across the axis |
| SlabClip.ClipPoint | src/clip.rs:22-24 | a lone point passes unchanged, whatever the band |
| SlabClip.ClipMultiPoint | src/clip.rs:26-35 | every kept point is an input point in the closed band, and every input point in the band is kept |
| SlabClip.ClipMultiPointConcat | src/clip.rs:26-35 | clipping a concatenation clips each part, so kept points keep their order |
| SlabClip.NewSlice | src/clip.rs:116-127 | an empty slice with the line's length; the segment bounds are copied only under line metrics, else 0 |
| SlabClip.CrossingOnSegment | src/clip.rs:152-245 | a synthesised point lies on k1 or k2 with importance 1, and across the axis between the ends of the input segment it was cut from (its progress t is in [0, 1]) |
| SlabClip.LineStep | src/clip.rs:141-246 | one loop iteration keeps every flushed slice non-empty and every slice point in the band; each point is an input vertex or the cut of an input segment that spans k1 or k2 |
| SlabClip.LineWalk | src/clip.rs:141-251 | the whole loop keeps that slice invariant |
| SlabClip.ClipLine | src/clip.rs:129-260 | a line of fewer than two points yields nothing; every slice is non-empty, lies in the band, and is a new_slice of the line; completeness is stated by ClipLineKeepsInBand |
| SlabClip.LineWalkKeeps | src/clip.rs:141-251 | the walk never loses a collected point, and collects every in-band vertex but the last, and the last when the final segment does not enter the band on k1 or k2 |
| SlabClip.ClipLineKeepsInBand | src/clip.rs:129-260 | every in-band vertex of the line but the last, and the last under the same condition, appears in some slice |
| SlabClip.ClipLines | src/clip.rs:48-53 | the slices of all lines are non-empty and lie in the band; ClipLinesFrom ties them to clip_line of each line |
| SlabClip.ClipLinesFrom | src/clip.rs:48-53 | every slice of the result is a slice of clip_line of some input line, and every slice of every line's clip is in the result |
| SlabClip.ClipLinesKeepInBand | src/clip.rs:48-53 | every such vertex of every line appears in some slice of the result |
| SlabClip.ClipLineString | src/clip.rs:37-46 | exactly one slice gives a LineString; zero or several give a MultiLineString holding them |
| SlabClip.ClipMultiLineString | src/clip.rs:48-59 | the same rule over the slices of every line, in order |
| SlabClip.RingStep | src/clip.rs:274-344 | one loop iteration keeps every ring point in the band; each is an input vertex or the cut of an input segment that spans k1 or k2 |
| SlabClip.RingWalk | src/clip.rs:274-344 | the whole ring loop keeps that invariant |
| SlabClip.CloseRing | src/clip.rs:346-353 | the result is empty only for empty input, starts with the input, adds at most the first point, and is closed |
| SlabClip.ClipRing | src/clip.rs:263-356 | area is copied; fewer than two points give an empty ring; the result is empty or closed, and lies in the band; completeness is stated by ClipRingKeepsInBand |
| SlabClip.RingWalkKeeps | src/clip.rs:274-344 | the ring walk never loses a collected point, and collects every in-band vertex but the last |
| SlabClip.ClipRingKeepsInBand | src/clip.rs:263-356 | every in-band vertex of the ring but the closing one is in the clipped ring |
| SlabClip.ClipRings | src/clip.rs:61-70 | every kept ring is non-empty, closed and in the band, and is clip_ring of some input ring; every ring that clips to non-empty is kept |
| SlabClip.ClipRingsConcat | src/clip.rs:61-70 | clipping the rings of a concatenation is concatenating the clipped rings, so survivors keep their order |
| SlabClip.ClipPolygon | src/clip.rs:61-70 | a polygon of at most as many rings, each non-empty, closed, and clip_ring of some input ring; every ring that clips to non-empty is kept |
| SlabClip.ClipMultiPolygon | src/clip.rs:72-87 | no polygon left is empty, every kept polygon is the clipped rings of some input polygon, and every polygon with a surviving ring is kept |
| SlabClip.ClipMultiPolygonConcat | src/clip.rs:72-87 | surviving polygons keep their relative order |
| SlabClip.ClipGeometryCollection | src/clip.rs:89-96 | as many members as given, each clipped in place |
| SlabClip.ClipGeometry | src/clip.rs:97-112 | a point passes unchanged, empty stays empty, and each kind maps to its own kind (lines to a line or multi-line) |
| SlabClip.ClipFeature | src/clip.rs:385-430 | a feature whose box is inside [k1, k2) is copied; one outside is dropped; otherwise its clipped geometry becomes one feature, or one per part for a multi-line under line metrics; properties and id are kept |
| SlabClip.ClipFeatures | src/clip.rs:383-432 | without line metrics at most one output per input; every output carries some input's properties and id; ClipFeaturesFrom ties the outputs to ClipFeature |
| SlabClip.ClipFeaturesFrom | src/clip.rs:383-432 | every output is an output of ClipFeature for some input feature, and every output ClipFeature makes for an input is in the result |
| SlabClip.Clip | src/clip.rs:365-433 | the aggregate accept returns the input; the aggregate reject returns nothing; without line metrics the output is no longer than the input |
| ClipProps.StrayPointNotInSlice | src/clip.rs:152-162 | a point off the line's only segment is not a crossing, so no slice of that line can hold it |
| ClipProps.ClipMultiPointSingle | src/clip.rs:28-33 | a single point is kept exactly when it lies in the closed band |
| ClipProps.ClipMultiPointInside | src/clip.rs:26-35 | points all in the band are all kept |
| ClipProps.LineWalkInside | src/clip.rs:221-245 | a walk over points all in the band collects them all into one open slice |
| ClipProps.ClipLineInside | src/clip.rs:129-260 | a line lying in the band comes back as one slice holding all its points |
| ClipProps.LineWalkBelow | src/clip.rs:152-185 | a walk over points all below the band collects nothing |
| ClipProps.ClipLineBelow | src/clip.rs:129-260 | a line lying below the band yields no slice |
| ClipProps.RingWalkInside | src/clip.rs:323-343 | a ring walk over points all in the band collects every point but the last |
| ClipProps.ClipRingInside | src/clip.rs:263-356 | a ring in the band comes back as all but its last point, closed again; a closed ring whose last two points differ comes back unchanged |
| ClipProps.ClipFeaturesSingle | src/clip.rs:383-432 | the loop over a single feature gives exactly that feature's own clip |
| ClipProps.ClipFeaturesConcat | src/clip.rs:383-432 | the feature loop distributes over concatenation, so output order follows input order |
| ClipProps.ClipFeaturesAllKept | src/clip.rs:393-395 | when every box is inside the band, every feature is copied |
| ClipProps.ClipFeaturesAllDropped | src/clip.rs:396-398 | when every box is outside the band, nothing is left |
| ClipProps.CutLevel | src/types.rs:80-88 | cutting a segment parallel to the clip axis keeps its other coordinate |
| ClipProps.StepCrossUp | src/clip.rs:152-168 | a segment crossing the whole band upwards flushes the slice with both crossings |
| ClipProps.StepEnterFromBelow | src/clip.rs:169-178 | a segment entering from below, not the last, adds the crossing at k1 |
| ClipProps.StepEnterFromAbove | src/clip.rs:204-213 | a segment entering from above, not the last, adds the crossing at k2 |
| ClipProps.StepLeaveUp | src/clip.rs:233-241 | a segment leaving upwards flushes the slice with its start and the crossing at k2 |
| ClipProps.StepLeaveDown | src/clip.rs:224-232 | a segment leaving downwards flushes the slice with its start and the crossing at k1 |
| ClipProps.ClipLineRepeatsEntry | src/clip.rs:152-245 | a three-point line that enters from below exactly on k1 and goes on inside the band gives one slice holding the entry vertex twice, then the last vertex |
| ClipProps.ClipLineOfWalk | src/clip.rs:253-259 | the result lists the flushed slices in order, then the open slice when it is non-empty |
| ClipProps.ClipLineScenario | src/clip.rs:129-260 | a 15-vertex polyline clipped to 10 <= x <= 40 gives exactly four slices, with the crossings marked with importance 1 |
| Wrap.ShiftFeature | src/wrap.rs:6-15 | every point and both box corners move by the offset in x; y, z, the geometry kind, properties, id and point count stay |
| Wrap.ShiftCoords | src/wrap.rs:5-16 | every feature is shifted, with count and order kept |
| Wrap.ShiftCoordsInverse | src/wrap.rs:5-16 | shifting by o and then by -o gives back the features |
| Wrap.ShiftKeepsInsideBoxX | src/wrap.rs:8-14 | points inside their feature's box in x stay inside after a shift |
| Wrap.Wrap | src/wrap.rs:19-43 | with both side copies empty the input is returned; otherwise left shifted by +1, then centre, then right shifted by -1, with the lengths adding up |
| Wrap.WrapBandsNeverTrivial | src/wrap.rs:21-30 | for buffers in [0, 1] none of the three bands takes clip's aggregate accept or reject |
| Wrap.WrapInterior | src/wrap.rs:19-27 | features whose boxes keep clear of both margins come back unchanged |
| TileId.ToId | src/lib.rs:66-68 | for a zoom below 32 the low five bits of the key are the zoom and the rest is the row-major grid position of (x, y) |
| TileId.ToIdFormula | src/lib.rs:66-68 | the key is (2^z * y + x) * 32 + z |
| TileId.ToIdRoundTrip | src/lib.rs:66-68 | unpacking a key gives back (z, x, y) for z < 32 and x < 2^z |
| TileId.ToIdInjective | src/lib.rs:66-68 | on those tiles, equal keys mean equal tiles and conversely |
| TileId.ToIdFitsU64 | src/lib.rs:66-68 | for z <= 29 and x, y < 2^z the key is below 2^64, so the u64 arithmetic does not wrap |
| TileId.ToIdWrapsAtZoom28 | src/lib.rs:66-68 | at zoom 28, the key of row 2^31 is the key of row 0 plus 2^64, so the two collide in u64 arithmetic |
| TileId.ToIdRoot | src/lib.rs:66-68 | the root tile's key is 0 |
| TileId.ToIdExample | src/lib.rs:66-68 | the key of tile (5, 19, 9) is 9829 |
| TileId.WrapX | src/lib.rs:186-187 | the wrapped x is x mod 2^z and lies below 2^z |
| TileId.ShrIsDivision | src/lib.rs:328-330 | k halvings divide by 2^k, which is the floor of the ancestor test |
| TileId.ShrInsideGrid | src/lib.rs:234-238 | a grid coordinate halves down to the root column 0 |
| TileId.AncestorKeyStep | src/lib.rs:234-239 | the first ancestor is the parent, and further ancestors are the parent's ancestors |
| TileIndex.DefaultOptionsValid | src/lib.rs:34-64 | the defaults keep the zoom bound and a positive extent; padding is 1/128; the tolerance is 0 at zoom 18 and 3/4096 at zoom 0 |
| TileIndex.NewInternalTile | src/lib.rs:270-278 | the entry records its (z, x, y) and tolerance, and starts without sources |
| TileIndex.TileTolerance | src/lib.rs:264-268 | 0 at max_zoom; otherwise between 0 and the option's tolerance |
| TileIndex.StatsSumBump | src/lib.rs:280-288 | bumping one zoom's count bumps the sum over any range containing that zoom |
| TileIndex.Inserted | src/lib.rs:263-290 | a new entry and its count keep total = number of tiles = sum of stats, and every other entry stays |
| TileIndex.TryInsert | src/lib.rs:260-291 | a present key leaves the index unchanged; an absent key gets a new entry and bumps total and stats[z] by one, with other zooms unchanged |
| TileIndex.WithSources | src/lib.rs:303-335 | replacing an entry's sources keeps the index valid; that entry is the old one with the new sources, and every other entry is exactly as it was |
| TileIndex.Decide | src/lib.rs:293-336 | empty features stop, and only they do; on the first pass a tile splits exactly when it is not at index_max_zoom and has more than index_max_points points, and otherwise retains its sources; when drilling, max_zoom stops without retaining, and a tile splits exactly when it is below max_zoom, not the target, and on the target's ancestor line, and otherwise retains its sources |
| TileIndex.Padding | src/lib.rs:338 | the padding is not negative |
| TileIndex.HalfBand | src/lib.rs:342-424 | each quadrant band is a non-inverted interval |
| TileIndex.Quadrant | src/lib.rs:342-424 | without line metrics, a quadrant holds at most as many features as its parent |
| TileIndex.ChildOfParent | src/lib.rs:360-424 | every tile below the root is one of its parent's four children |
| TileIndex.SplitTile | src/lib.rs:247-430 | the index stays valid and only grows; the entry exists afterwards, and every entry of the index as inserted stays the same but for its sources; new entries lie only in the subtree of (z, x, y); empty features or max_zoom leave it as inserted; a stop retains the sources; a split creates all four children and clears the sources |
| TileIndex.TryInsertBuilt | src/lib.rs:258-291 | after a split that keeps the inserted entries, tile (z, x, y) is the old entry but for its sources, or a new tile built from the features given |
| TileIndex.SiblingsNotAdded | src/lib.rs:342-424 | splitting one quadrant never adds the key of a quadrant split after it |
| TileIndex.SplitsBuildChildren | src/lib.rs:342-424 | after the four quadrant splits in order, each child is the old entry or a tile built from its own quadrant's features |
| TileIndex.SplitChildren | src/lib.rs:338-424 | after the four quadrant calls all four children are present, each built from its own quadrant's clip of the features when it was not there before; new entries lie in the subtree |
| TileIndex.SplitQuadrant | src/lib.rs:342-424 | one child is present after tiling its quadrant, built from that quadrant's clip when new; new entries lie in the child's subtree |
| TileIndex.SplitChild | src/lib.rs:258-291 | a child split leaves the child built from the features it received, and adds entries only below the child |
| TileIndex.SplitTileZeros | src/lib.rs:244-246 | the first pass from a tile leaves the index valid and the tile present; with no features it only inserts; entries of the inserted index keep all but their sources, and new entries lie in the subtree |
| TileIndex.FindParent | src/lib.rs:226-242 | the root has no parent; a present direct parent is the answer; any answer is an entry of the map |
| TileIndex.FindParentNearest | src/lib.rs:226-242 | a found parent is the entry at the nearest present strict ancestor key |
| TileIndex.FindParentNone | src/lib.rs:226-242 | the search fails exactly when no strict ancestor key is present |
| TileIndex.FindParentGrows | src/lib.rs:208-214 | a map that only grows keeps every parent it could find |
| TileIndex.RootIsParent | src/lib.rs:226-242 | with the root present, every grid tile below it has a parent |
| TileIndex.RowOutsideGrid | src/lib.rs:186-194 | a row at or beyond 2^z has no entry and no parent, since y is not wrapped |
| TileIndex.DirectParentOnPath | src/lib.rs:327-335 | the direct parent's entry records (z-1, x >> 1, y >> 1), so it passes the drill-down ancestor test |
| TileIndex.SplitExisting | src/lib.rs:197-211 | re-splitting an existing entry keeps the index valid and growing; an entry without sources changes nothing; an entry with sources, not at max_zoom or the target's zoom, and on the target's ancestor line, gets all four children |
| TileIndex.DrillSplit | src/lib.rs:194-211 | splitting from the nearest ancestor keeps the index valid and only grows it; an ancestor without sources changes nothing; a direct parent with sources creates the requested tile |
| TileIndex.DrillDown | src/lib.rs:194-219 | drilling always answers, so the second "Parent tile not found" panic is unreachable; the answer is the requested tile if it now exists, else the empty tile; nothing changes when the nearest ancestor holds no sources; the tile is created when it does |
| TileIndex.GetTile | src/lib.rs:181-220 | a zoom above max_zoom panics; x is wrapped; a cached tile is returned and the index is unchanged; "Parent tile not found" happens exactly when neither the tile nor an ancestor exists, so always for a row at or beyond 2^z (with unbounded keys) and never for a grid tile while the root exists; otherwise the answer is the tile or the empty tile |
| TileIndex.NewIndex | src/lib.rs:157-179 | the new index is valid, keeps its options and holds the root tile |

## Left out

- `src/simplify.rs`: every body is commented out, so there is no behaviour to model.
- `src/convert.rs`: the projection is transcendental float arithmetic and the file does not type-check. `TileIndex.NewIndex` therefore takes already-converted features, and `generate_id` has no effect.
- `InternalTile::new` (`src/tile.rs:25-35`) is `unimplemented!()`. It is the opaque `Builder` parameter.
- `geojson_to_tile`, `geojson_to_feature_collection`, `from_geojson` and `get_internal_tiles`: GeoJSON plumbing around the core.
- `println!`/`eprintln!` logging, and HashMap internals (the map is a Dafny `map`).
- IEEE-754 behaviour (rounding, NaN, infinities) is not modelled: coordinates are `real`.
- SlabClip.ClipLine: under line metrics, slices keep `new_slice`'s `seg_start`/`seg_end`. The source's updates from `hypot` segment lengths (`src/clip.rs:148-150`, `157-164`, `248-257`) are square-root float arithmetic and are not modelled.
- SlabClip.ClipFeature: its contract gives the structure of the output (count, geometry, properties, id), not the recomputed boxes of the rebuilt features.
- SlabClip.Clip: requires `k1 <= k2`, which the source does not check. With `k1 > k2` the f64 walk can divide by zero. Every caller passes a non-inverted band.
- Types.CalcProgressX: requires `a.x != b.x`; the f64 source divides by zero otherwise. The clip walks only call it on segments that cross a boundary. Types.CalcProgressY likewise.
- Wrap.Wrap: requires `buffer >= -0.5`, so that the left band is not inverted. The source's buffer is a ratio of unsigned integers, so never negative.
- TileIndex.SplitTile: requires a valid index (`max_zoom` and `index_max_zoom` below 32, a positive extent), `z` no deeper than the stop zoom, and a tile inside the grid. The source shifts a 32-bit one by the zoom and divides by the extent, and it only calls `split_tile` in that range. GetTile, DrillDown, SplitChildren, SplitQuadrant and SplitTileZeros carry the same requirement.
- TileIndex.Quadrant: the quadrant bands are computed over reals, not f64.
- Integer widths: `u8`/`u16`/`u32`/`u64` are unbounded `nat`s. The wrap-around of the u32 `total` and `stats` counters is not modelled. Nor is the wrap-around of the u64 `to_id`, which starts at zoom 28 for rows `y >= 2^(59-z)`. `TileId.ToIdFitsU64` states where the key fits, and `TileId.ToIdWrapsAtZoom28` exhibits a collision past it.
- TileIndex.GetTile: keys are unbounded, so its "Parent tile not found" clause for rows `y >= 2^z` holds in the source only while `to_id` of the request stays below 2^64. Past that, the wrapped key can hit a cached tile.
- SlabClip.ClipLineKeepsInBand: the last vertex of a line is covered only under `LastKept`. When the last segment comes from outside the band and ends exactly on k1 or k2, the source pushes nothing (`src/clip.rs:178-184`, `214-220`), so that vertex is dropped. The lemma claims nothing for it.
- SlabClip.ClipRingKeepsInBand: the ring's closing vertex is not covered. It repeats the first vertex in a closed ring, and the ring walk never pushes it.
- TileIndex.SplitTile: the link between each child and its quadrant's clip is stated on SplitChildren and SplitQuadrant, not in SplitTile's own contract. Both are what SplitTile's split branch runs.
- The contents of a built tile (`Tile` features and counts) come from the opaque builder, so nothing is proved about them.

=== FILE: clip.dfy ===
/** The axis-parametric slab clipper (src/clip.rs): cuts geometry against the
    band k1..k2 along one axis. Points inside the band pass, line strings are
    cut into slices, rings are cut and re-closed, and the top-level `Clip`
    short-cuts whole feature sets and single features by their boxes. */
module SlabClip {
  import opened Outcomes
  import opened Seqs
  import opened Types

  /** `Clipper<I>`: the band and the line-metrics switch, along one axis. */
  datatype Clipper = Clipper(axis: Axis, k1: real, k2: real, lineMetrics: bool) {

    /** Every caller clips against a band whose lower end is not above its
        upper end; with k1 > k2 the f64 walk can divide by zero. */
    predicate Valid() { k1 <= k2 }

    /** `p` lies in the closed band along the clip axis. */
    predicate Contains(p: Point) { k1 <= Coord(axis, p) <= k2 }
  }

  /** The crossing of segment a..b with the boundary value `v`:
      `intersect(a, b, v, calc_progress(a, b, v))`. */
  function Cut(c: Clipper, a: Point, b: Point, v: real): (p: Point)
    requires Coord(c.axis, a) != Coord(c.axis, b)
    ensures Coord(c.axis, p) == v && p.z == 1.0
    ensures Between(v, Coord(c.axis, a), Coord(c.axis, b)) ==>
      Between(Other(c.axis, p), Other(c.axis, a), Other(c.axis, b))
  {
    Intersect(c.axis, a, b, v, CalcProgress(c.axis, a, b, v))
  }

  /** Segment j..j+1 of `pts` spans the band end `v` along the clip axis. */
  predicate Straddles(c: Clipper, pts: seq<Point>, j: int, v: real)
  {
    && 0 <= j && j + 1 < |pts|
    && (v == c.k1 || v == c.k2)
    && Coord(c.axis, pts[j]) != Coord(c.axis, pts[j + 1])
    && Between(v, Coord(c.axis, pts[j]), Coord(c.axis, pts[j + 1]))
  }

  /** `p` is the point where some segment of `pts` crosses a band end. */
  ghost predicate IsCrossing(c: Clipper, pts: seq<Point>, p: Point)
  {
    exists j, v :: Straddles(c, pts, j, v) && p == Cut(c, pts[j], pts[j + 1], v)
  }

  /** Whichever band end segment i..i+1 spans, its cut there is a crossing. */
  lemma SegmentCuts(c: Clipper, pts: seq<Point>, i: nat)
    requires i + 1 < |pts|
    ensures Straddles(c, pts, i, c.k1) ==> IsCrossing(c, pts, Cut(c, pts[i], pts[i + 1], c.k1))
    ensures Straddles(c, pts, i, c.k2) ==> IsCrossing(c, pts, Cut(c, pts[i], pts[i + 1], c.k2))
  {
  }

  /** A crossing lies on a band end, carries importance 1, and lies across the
      axis between the ends of the segment it was cut from (the progress `t`
      of `calc_progress` is in [0, 1]). */
  lemma CrossingOnSegment(c: Clipper, pts: seq<Point>, p: Point) returns (j: nat)
    requires IsCrossing(c, pts, p)
    ensures j + 1 < |pts|
    ensures (Coord(c.axis, p) == c.k1 || Coord(c.axis, p) == c.k2) && p.z == 1.0
    ensures Between(Coord(c.axis, p), Coord(c.axis, pts[j]), Coord(c.axis, pts[j + 1]))
    ensures Between(Other(c.axis, p), Other(c.axis, pts[j]), Other(c.axis, pts[j + 1]))
  {
    var j', v :| Straddles(c, pts, j', v) && p == Cut(c, pts[j'], pts[j' + 1], v);
    j := j';
  }

  /** A slice (or ring) whose points all lie in the band and are either
      vertices of the input `pts` or crossings of its segments with a band end. */
  ghost predicate SliceOk(c: Clipper, pts: seq<Point>, s: seq<Point>)
  {
    forall p :: p in s ==> c.Contains(p) && (p in pts || IsCrossing(c, pts, p))
  }

  // ---------------------------------------------------------------- points

  /** `clip_point`: a lone point passes unchanged. */
  function ClipPoint(c: Clipper, p: Point): (r: Geometry)
    ensures r.PointGeometry? && r.point == p
  {
    PointGeometry(p)
  }

  /** `clip_multi_point`: keeps the points inside the closed band, in order. */
  function ClipMultiPoint(c: Clipper, ps: seq<Point>): (r: Geometry)
    ensures r.MultiPoint? && |r.points| <= |ps|
    ensures forall i :: 0 <= i < |r.points| ==> r.points[i] in ps && c.Contains(r.points[i])
    ensures forall i :: 0 <= i < |ps| && c.Contains(ps[i]) ==> ps[i] in r.points
  {
    MultiPoint(Filter(ps, p => c.Contains(p)))
  }

  /** Clipping two runs of points one after the other is clipping their
      concatenation: the kept points stay in input order. */
  lemma ClipMultiPointConcat(c: Clipper, a: seq<Point>, b: seq<Point>)
    ensures ClipMultiPoint(c, a + b).points == ClipMultiPoint(c, a).points + ClipMultiPoint(c, b).points
  {
    FilterConcat(a, b, p => c.Contains(p));
  }

  // ----------------------------------------------------------------- lines

  /** `new_slice`: an empty piece carrying the line's length, and its
      start/end distances only under line metrics. */
  function NewSlice(c: Clipper, line: LineString): (s: LineString)
    ensures s.elements == [] && s.dist == line.dist
    ensures c.lineMetrics ==> s.segStart == line.segStart && s.segEnd == line.segEnd
    ensures !c.lineMetrics ==> s.segStart == 0.0 && s.segEnd == 0.0
  {
    LineString([], line.dist,
      if c.lineMetrics then line.segStart else 0.0,
      if c.lineMetrics then line.segEnd else 0.0)
  }

  /** The state of the line walk: the slices already flushed, and the one
      being built. */
  datatype Walk = Walk(done: seq<seq<Point>>, cur: seq<Point>)

  /** Every flushed slice is non-empty, and every slice is well placed. */
  ghost predicate WalkOk(c: Clipper, pts: seq<Point>, w: Walk)
  {
    && (forall s :: s in w.done ==> s != [] && SliceOk(c, pts, s))
    && SliceOk(c, pts, w.cur)
  }

  /** One iteration of the `clip_line` loop, on the segment pts[i]..pts[i+1]:
      the six-way classification of its ends against the band. */
  function LineStep(c: Clipper, pts: seq<Point>, i: nat, w: Walk): (r: Walk)
    requires c.Valid() && i + 1 < |pts|
    ensures WalkOk(c, pts, w) ==> WalkOk(c, pts, r)
  {
    SegmentCuts(c, pts, i);
    var a := pts[i];
    var b := pts[i + 1];
    var ak := Coord(c.axis, a);
    var bk := Coord(c.axis, b);
    var isLast := i + 2 == |pts|;
    if ak < c.k1 then
      if bk > c.k2 then
        // ---|-----|-->
        Walk(w.done + [w.cur + [Cut(c, a, b, c.k1), Cut(c, a, b, c.k2)]], [])
      else if bk > c.k1 then
        // ---|-->  |
        Walk(w.done, w.cur + [Cut(c, a, b, c.k1)] + (if isLast then [b] else []))
      else if bk == c.k1 && !isLast then
        // --->|..  |
        Walk(w.done, w.cur + [b])
      else
        w
    else if ak > c.k2 then
      if bk < c.k1 then
        // <--|-----|---
        Walk(w.done + [w.cur + [Cut(c, a, b, c.k2), Cut(c, a, b, c.k1)]], [])
      else if bk < c.k2 then
        // |  <--|---
        Walk(w.done, w.cur + [Cut(c, a, b, c.k2)] + (if isLast then [b] else []))
      else if bk == c.k2 && !isLast then
        // |  ..|<---
        Walk(w.done, w.cur + [b])
      else
        w
    else
      var cur := w.cur + [a];
      if bk < c.k1 then
        // <--|---  |
        Walk(w.done + [cur + [Cut(c, a, b, c.k1)]], [])
      else if bk > c.k2 then
        // |  ---|-->
        Walk(w.done + [cur + [Cut(c, a, b, c.k2)]], [])
      else if isLast then
        // | --> |
        Walk(w.done, cur + [b])
      else
        Walk(w.done, cur)
  }

  /** The `clip_line` loop from segment `i` to the end of the line. */
  function LineWalk(c: Clipper, pts: seq<Point>, i: nat, w: Walk): (r: Walk)
    requires c.Valid()
    ensures WalkOk(c, pts, w) ==> WalkOk(c, pts, r)
    decreases |pts| - i
  {
    if i + 1 >= |pts| then w
    else LineWalk(c, pts, i + 1, LineStep(c, pts, i, w))
  }

  /** `clip_line`: the slices of `line` inside the band, each a `new_slice`
      of the line holding its points. A line of fewer than two points
      yields nothing; every slice is non-empty and lies in the band. */
  function ClipLine(c: Clipper, line: LineString): (r: seq<LineString>)
    requires c.Valid()
    ensures |line.elements| < 2 ==> r == []
    ensures forall s :: s in r ==>
      && s.elements != []
      && SliceOk(c, line.elements, s.elements)
      && s == NewSlice(c, line).(elements := s.elements)
  {
    if |line.elements| < 2 then []
    else
      var w := LineWalk(c, line.elements, 0, Walk([], []));
      var slice := NewSlice(c, line);
      var flushed := MapSeq(w.done, (pts: seq<Point>) => slice.(elements := pts));
      var open := if w.cur != [] then [slice.(elements := w.cur)] else [];
      assert WalkOk(c, line.elements, w);
      assert forall s :: s in flushed ==> s.elements in w.done && s == slice.(elements := s.elements);
      assert forall s :: s in flushed + open ==> s in flushed || s in open;
      flushed + open
  }

  /** `clip_line` over each line of a multi-line, collecting the slices in order. */
  function ClipLines(c: Clipper, lines: seq<LineString>): (r: seq<LineString>)
    requires c.Valid()
    ensures forall s :: s in r ==> s.elements != [] && forall p :: p in s.elements ==> c.Contains(p)
  {
    if lines == [] then [] else ClipLine(c, lines[0]) + ClipLines(c, lines[1..])
  }

  /** The slices of a multi-line are exactly those of its lines: every slice
      comes from some line's `clip_line`, and every such slice is there. */
  lemma {:induction false} ClipLinesFrom(c: Clipper, lines: seq<LineString>)
    requires c.Valid()
    ensures forall s :: s in ClipLines(c, lines) ==> exists j :: 0 <= j < |lines| && s in ClipLine(c, lines[j])
    ensures forall j, s :: 0 <= j < |lines| && s in ClipLine(c, lines[j]) ==> s in ClipLines(c, lines)
  {
    if lines != [] {
      ClipLinesFrom(c, lines[1..]);
      assert forall j :: 0 < j < |lines| ==> lines[j] == lines[1..][j - 1];
    }
  }

  // ------------------------------------------------ lines: nothing dropped

  /** The points a line walk has collected so far, flushed slices first. */
  function Collected(w: Walk): seq<Point>
  {
    Flatten(w.done) + w.cur
  }

  /** Whether `clip_line` keeps the last vertex of `pts`: it does when the
      vertex is in the band, unless the final segment arrives from outside
      and stops exactly on the band end it came through. */
  predicate LastKept(c: Clipper, pts: seq<Point>)
  {
    && 2 <= |pts|
    && var a := Coord(c.axis, pts[|pts| - 2]);
    && var b := Coord(c.axis, pts[|pts| - 1]);
    && c.Contains(pts[|pts| - 1])
    && !(a < c.k1 && b == c.k1)
    && !(a > c.k2 && b == c.k2)
  }

  /** One step of the walk only appends to what was collected, and
      collects the segment's start when it lies in the band (and the
      line's last vertex on the final segment, as `LastKept` says). */
  lemma LineStepKeeps(c: Clipper, pts: seq<Point>, i: nat, w: Walk)
    requires c.Valid() && i + 1 < |pts|
    ensures Collected(w) <= Collected(LineStep(c, pts, i, w))
    ensures c.Contains(pts[i]) ==> pts[i] in Collected(LineStep(c, pts, i, w))
    ensures i + 2 == |pts| && LastKept(c, pts) ==> pts[i + 1] in Collected(LineStep(c, pts, i, w))
  {
    var r := LineStep(c, pts, i, w);
    if r.done != w.done {
      var last := r.done[|w.done|];
      assert r.done == w.done + [last] && r.cur == [] && w.cur <= last;
      FlattenSnoc(w.done, last);
    } else {
      assert w.cur <= r.cur;
    }
  }

  /** The walk from segment `i` on collects every in-band vertex from `i`
      to the one before last, and the last one when `LastKept` holds. */
  lemma {:induction false} LineWalkKeeps(c: Clipper, pts: seq<Point>, i: nat, w: Walk)
    requires c.Valid()
    ensures Collected(w) <= Collected(LineWalk(c, pts, i, w))
    ensures forall j :: i <= j < |pts| - 1 && c.Contains(pts[j]) ==> pts[j] in Collected(LineWalk(c, pts, i, w))
    ensures i + 1 < |pts| && LastKept(c, pts) ==> pts[|pts| - 1] in Collected(LineWalk(c, pts, i, w))
    decreases |pts| - i
  {
    if i + 1 < |pts| {
      var w' := LineStep(c, pts, i, w);
      var r := LineWalk(c, pts, i + 1, w');
      assert r == LineWalk(c, pts, i, w);
      LineStepKeeps(c, pts, i, w);
      LineWalkKeeps(c, pts, i + 1, w');
      assert Collected(w') <= Collected(r);
      if c.Contains(pts[i]) {
        assert pts[i] in Collected(w');
      }
      if i + 2 == |pts| {
        assert r == w';
      }
    }
  }

  /** A point the line walk collected lies in one of `clip_line`'s slices. */
  lemma CollectedInSlice(c: Clipper, line: LineString, p: Point)
    requires c.Valid() && 2 <= |line.elements|
    requires p in Collected(LineWalk(c, line.elements, 0, Walk([], [])))
    ensures exists s :: s in ClipLine(c, line) && p in s.elements
  {
    var w := LineWalk(c, line.elements, 0, Walk([], []));
    var r := ClipLine(c, line);
    var slice := NewSlice(c, line);
    if p in w.cur {
      assert r[|r| - 1] == slice.(elements := w.cur);
    } else {
      FlattenMember(w.done, p);
      var i :| 0 <= i < |w.done| && p in w.done[i];
      assert r[i] == slice.(elements := w.done[i]);
    }
  }

  /** `clip_line` drops no in-band vertex: every vertex inside the band but
      the last lies in one of the slices, and the last does too unless it
      sits on the band end the final segment came through. */
  lemma ClipLineKeepsInBand(c: Clipper, line: LineString, j: nat)
    requires c.Valid() && j < |line.elements| && c.Contains(line.elements[j])
    requires j + 1 < |line.elements| || LastKept(c, line.elements)
    ensures exists s :: s in ClipLine(c, line) && line.elements[j] in s.elements
  {
    LineWalkKeeps(c, line.elements, 0, Walk([], []));
    CollectedInSlice(c, line, line.elements[j]);
  }

  /** Likewise over the lines of a multi-line: no in-band vertex is lost. */
  lemma {:induction false} ClipLinesKeepInBand(c: Clipper, lines: seq<LineString>, l: nat, j: nat)
    requires c.Valid() && l < |lines| && j < |lines[l].elements| && c.Contains(lines[l].elements[j])
    requires j + 1 < |lines[l].elements| || LastKept(c, lines[l].elements)
    ensures exists s :: s in ClipLines(c, lines) && lines[l].elements[j] in s.elements
  {
    assert ClipLines(c, lines) == ClipLine(c, lines[0]) + ClipLines(c, lines[1..]);
    if l == 0 {
      ClipLineKeepsInBand(c, lines[0], j);
    } else {
      assert lines[1..][l - 1] == lines[l];
      ClipLinesKeepInBand(c, lines[1..], l - 1, j);
    }
  }

  /** The slices a line-clipping result holds. */
  function Parts(g: Geometry): seq<LineString>
  {
    match g
    case LineStringGeometry(l) => [l]
    case MultiLineString(ls) => ls
    case _ => []
  }

  /** A single slice becomes a line string; zero or several, a multi-line. */
  function LinesResult(parts: seq<LineString>): (r: Geometry)
    ensures r.LineStringGeometry? || r.MultiLineString?
    ensures r.LineStringGeometry? <==> |parts| == 1
    ensures Parts(r) == parts
  {
    if |parts| == 1 then LineStringGeometry(parts[0]) else MultiLineString(parts)
  }

  /** `clip_line_string`. */
  function ClipLineString(c: Clipper, line: LineString): (r: Geometry)
    requires c.Valid()
    ensures Parts(r) == ClipLine(c, line)
    ensures r.LineStringGeometry? <==> |ClipLine(c, line)| == 1
    ensures r.MultiLineString? <==> |ClipLine(c, line)| != 1
  {
    LinesResult(ClipLine(c, line))
  }

  /** `clip_multi_line_string`. */
  function ClipMultiLineString(c: Clipper, lines: seq<LineString>): (r: Geometry)
    requires c.Valid()
    ensures Parts(r) == ClipLines(c, lines)
    ensures r.LineStringGeometry? <==> |ClipLines(c, lines)| == 1
    ensures r.MultiLineString? <==> |ClipLines(c, lines)| != 1
  {
    LinesResult(ClipLines(c, lines))
  }

  // ----------------------------------------------------------------- rings

  /** One iteration of the `clip_ring` loop, on the segment pts[i]..pts[i+1]. */
  function RingStep(c: Clipper, pts: seq<Point>, i: nat, cur: seq<Point>): (r: seq<Point>)
    requires c.Valid() && i + 1 < |pts|
    ensures SliceOk(c, pts, cur) ==> SliceOk(c, pts, r)
  {
    SegmentCuts(c, pts, i);
    var a := pts[i];
    var b := pts[i + 1];
    var ak := Coord(c.axis, a);
    var bk := Coord(c.axis, b);
    var isLast := i + 2 == |pts|;
    if ak < c.k1 then
      if bk > c.k1 then
        // ---|-->  |   or   ---|-----|-->
        cur + [Cut(c, a, b, c.k1)]
          + (if bk > c.k2 then [Cut(c, a, b, c.k2)] else if isLast then [b] else [])
      else
        cur
    else if ak > c.k2 then
      if bk < c.k2 then
        // |  <--|---   or   <--|-----|---
        cur + [Cut(c, a, b, c.k2)]
          + (if bk < c.k1 then [Cut(c, a, b, c.k1)] else if isLast then [b] else [])
      else
        cur
    else
      // | --> |
      cur + [a]
        + (if bk < c.k1 then [Cut(c, a, b, c.k1)] else if bk > c.k2 then [Cut(c, a, b, c.k2)] else [])
  }

  /** The `clip_ring` loop from segment `i` to the end of the ring. */
  function RingWalk(c: Clipper, pts: seq<Point>, i: nat, cur: seq<Point>): (r: seq<Point>)
    requires c.Valid()
    ensures SliceOk(c, pts, cur) ==> SliceOk(c, pts, r)
    decreases |pts| - i
  {
    if i + 1 >= |pts| then cur
    else RingWalk(c, pts, i + 1, RingStep(c, pts, i, cur))
  }

  /** Re-appends the first point when the first and last differ. */
  function CloseRing(pts: seq<Point>): (r: seq<Point>)
    ensures r == [] <==> pts == []
    ensures r != [] ==> r[0] == r[|r| - 1]
    ensures |pts| <= |r| <= |pts| + 1 && r[..|pts|] == pts
    ensures forall p :: p in r ==> p in pts
  {
    if pts != [] && pts[0] != pts[|pts| - 1] then pts + [pts[0]] else pts
  }

  /** `clip_ring`: the part of the ring inside the band, closed, with the
      input's area; empty when fewer than two points come in. */
  function ClipRing(c: Clipper, ring: LinearRing): (r: LinearRing)
    requires c.Valid()
    ensures r.area == ring.area
    ensures |ring.elements| < 2 ==> r.elements == []
    ensures r.elements == [] || r.elements[0] == r.elements[|r.elements| - 1]
    ensures SliceOk(c, ring.elements, r.elements)
  {
    if |ring.elements| < 2 then LinearRing([], ring.area)
    else LinearRing(CloseRing(RingWalk(c, ring.elements, 0, [])), ring.area)
  }

  /** One ring step only appends, and appends the segment's start when it
      lies in the band. */
  lemma RingStepKeeps(c: Clipper, pts: seq<Point>, i: nat, cur: seq<Point>)
    requires c.Valid() && i + 1 < |pts|
    ensures cur <= RingStep(c, pts, i, cur)
    ensures c.Contains(pts[i]) ==> pts[i] in RingStep(c, pts, i, cur)
  {
  }

  /** The ring walk only appends, and collects every in-band vertex from
      segment `i` to the one before last. */
  lemma {:induction false} RingWalkKeeps(c: Clipper, pts: seq<Point>, i: nat, cur: seq<Point>)
    requires c.Valid()
    ensures cur <= RingWalk(c, pts, i, cur)
    ensures forall j :: i <= j < |pts| - 1 && c.Contains(pts[j]) ==> pts[j] in RingWalk(c, pts, i, cur)
    decreases |pts| - i
  {
    if i + 1 < |pts| {
      var cur' := RingStep(c, pts, i, cur);
      var r := RingWalk(c, pts, i + 1, cur');
      assert r == RingWalk(c, pts, i, cur);
      RingStepKeeps(c, pts, i, cur);
      RingWalkKeeps(c, pts, i + 1, cur');
      if c.Contains(pts[i]) {
        PrefixMember(cur', r, pts[i]);
      }
    }
  }

  /** `clip_ring` drops no in-band vertex before the closing one. The last
      vertex of a ring closes it; the clipped ring is closed again from its
      own first point. */
  lemma ClipRingKeepsInBand(c: Clipper, ring: LinearRing, j: nat)
    requires c.Valid() && j + 1 < |ring.elements| && c.Contains(ring.elements[j])
    ensures ring.elements[j] in ClipRing(c, ring).elements
  {
    var walked := RingWalk(c, ring.elements, 0, []);
    RingWalkKeeps(c, ring.elements, 0, []);
    assert CloseRing(walked)[..|walked|] == walked;
  }

  /** The rings of a polygon clipped one by one, dropping those that vanish. */
  function ClipRings(c: Clipper, rings: seq<LinearRing>): (r: seq<LinearRing>)
    requires c.Valid()
    ensures |r| <= |rings|
    ensures forall i :: 0 <= i < |r| ==>
      && r[i].elements != []
      && r[i].elements[0] == r[i].elements[|r[i].elements| - 1]
      && forall p :: p in r[i].elements ==> c.Contains(p)
    ensures forall i :: 0 <= i < |rings| && ClipRing(c, rings[i]).elements != [] ==>
      ClipRing(c, rings[i]) in r
    ensures forall i :: 0 <= i < |r| ==> exists j :: 0 <= j < |rings| && r[i] == ClipRing(c, rings[j])
  {
    Filter(MapSeq(rings, ring => ClipRing(c, ring)), (ring: LinearRing) => ring.elements != [])
  }

  /** `clip_polygon`: the polygon of the rings that survive clipping. */
  function ClipPolygon(c: Clipper, rings: seq<LinearRing>): (r: Geometry)
    requires c.Valid()
    ensures r.Polygon? && |r.rings| <= |rings|
    ensures forall i :: 0 <= i < |r.rings| ==>
      && r.rings[i].elements != []
      && r.rings[i].elements[0] == r.rings[i].elements[|r.rings[i].elements| - 1]
    ensures forall i :: 0 <= i < |rings| && ClipRing(c, rings[i]).elements != [] ==>
      ClipRing(c, rings[i]) in r.rings
    ensures forall i :: 0 <= i < |r.rings| ==> exists j :: 0 <= j < |rings| && r.rings[i] == ClipRing(c, rings[j])
  {
    Polygon(ClipRings(c, rings))
  }

  /** `clip_multi_polygon`: clips every polygon's rings and drops polygons
      left without a ring. */
  function ClipMultiPolygon(c: Clipper, polygons: seq<seq<LinearRing>>): (r: Geometry)
    requires c.Valid()
    ensures r.MultiPolygon? && |r.polygons| <= |polygons|
    ensures forall i :: 0 <= i < |r.polygons| ==> r.polygons[i] != []
    ensures forall i :: 0 <= i < |polygons| && ClipRings(c, polygons[i]) != [] ==>
      ClipRings(c, polygons[i]) in r.polygons
    ensures forall i :: 0 <= i < |r.polygons| ==>
      exists j :: 0 <= j < |polygons| && r.polygons[i] == ClipRings(c, polygons[j])
  {
    MultiPolygon(Filter(MapSeq(polygons, rings => ClipRings(c, rings)), (p: seq<LinearRing>) => p != []))
  }

  /** Clipping the polygons of two multi-polygons one after the other is
      clipping their concatenation: surviving polygons keep their order. */
  lemma ClipMultiPolygonConcat(c: Clipper, a: seq<seq<LinearRing>>, b: seq<seq<LinearRing>>)
    requires c.Valid()
    ensures ClipMultiPolygon(c, a + b).polygons == ClipMultiPolygon(c, a).polygons + ClipMultiPolygon(c, b).polygons
  {
    var f := rings => ClipRings(c, rings);
    MapSeqConcat(a, b, f);
    FilterConcat(MapSeq(a, f), MapSeq(b, f), (p: seq<LinearRing>) => p != []);
  }

  /** Likewise for the rings of one polygon. */
  lemma ClipRingsConcat(c: Clipper, a: seq<LinearRing>, b: seq<LinearRing>)
    requires c.Valid()
    ensures ClipRings(c, a + b) == ClipRings(c, a) + ClipRings(c, b)
  {
    var f := ring => ClipRing(c, ring);
    MapSeqConcat(a, b, f);
    FilterConcat(MapSeq(a, f), MapSeq(b, f), (ring: LinearRing) => ring.elements != []);
  }

  // ------------------------------------------------------------- dispatch

  /** `clip_geometry`: dispatch on the geometry kind. */
  function ClipGeometry(c: Clipper, g: Geometry): (r: Geometry)
    requires c.Valid()
    ensures g.Empty? ==> r.Empty?
    ensures g.PointGeometry? ==> r == g
    ensures g.MultiPoint? ==> r.MultiPoint?
    ensures (g.LineStringGeometry? || g.MultiLineString?) <==> (r.LineStringGeometry? || r.MultiLineString?)
    ensures g.Polygon? <==> r.Polygon?
    ensures g.MultiPolygon? <==> r.MultiPolygon?
    ensures g.GeometryCollection? <==> r.GeometryCollection?
    decreases g
  {
    match g
    case Empty => Empty
    case PointGeometry(p) => ClipPoint(c, p)
    case MultiPoint(ps) => ClipMultiPoint(c, ps)
    case LineStringGeometry(l) => ClipLineString(c, l)
    case MultiLineString(ls) => ClipMultiLineString(c, ls)
    case Polygon(rs) => ClipPolygon(c, rs)
    case MultiPolygon(ps) => ClipMultiPolygon(c, ps)
    case GeometryCollection(gs) => ClipGeometryCollection(c, gs)
  }

  /** `clip_geometry_collection`: clips every member, keeping them all, in order. */
  function ClipGeometryCollection(c: Clipper, gs: seq<Geometry>): (r: Geometry)
    requires c.Valid()
    ensures r.GeometryCollection? && |r.members| == |gs|
    ensures forall i :: 0 <= i < |gs| ==> r.members[i] == ClipGeometry(c, gs[i])
    decreases gs
  {
    GeometryCollection(seq(|gs|, i requires 0 <= i < |gs| => ClipGeometry(c, gs[i])))
  }

  // -------------------------------------------------------------- features

  /** The trivial-accept test of `clip`: the range lies in [k1, k2). */
  predicate Accepts(k1: real, k2: real, min: real, max: real) { min >= k1 && max < k2 }

  /** The trivial-reject test of `clip`: the range lies wholly outside [k1, k2). */
  predicate Rejects(k1: real, k2: real, min: real, max: real) { max < k1 || min >= k2 }

  /** The feature's own box along the clip axis lies inside the band. */
  predicate KeptWhole(c: Clipper, f: Feature)
  {
    Accepts(c.k1, c.k2, Coord2D(c.axis, f.bbox.min), Coord2D(c.axis, f.bbox.max))
  }

  /** The feature's box lies wholly outside the band (and is not accepted first). */
  predicate DroppedWhole(c: Clipper, f: Feature)
  {
    && !KeptWhole(c, f)
    && Rejects(c.k1, c.k2, Coord2D(c.axis, f.bbox.min), Coord2D(c.axis, f.bbox.max))
  }

  /** The body of the `clip` loop for one feature: copy it when its box is
      inside the band, drop it when outside, otherwise clip its geometry and
      rebuild it, one feature per part under line metrics. */
  function ClipFeature(c: Clipper, f: Feature): (r: seq<Feature>)
    requires c.Valid()
    ensures forall o :: o in r ==> o.properties == f.properties && o.id == f.id
    ensures KeptWhole(c, f) ==> r == [f]
    ensures DroppedWhole(c, f) ==> r == []
    ensures !c.lineMetrics ==> |r| <= 1
    ensures !KeptWhole(c, f) && !DroppedWhole(c, f) ==>
      var g := ClipGeometry(c, f.geometry);
      if c.lineMetrics && g.MultiLineString? then
        |r| == |g.lines| && forall i :: 0 <= i < |r| ==> r[i].geometry == LineStringGeometry(g.lines[i])
      else
        |r| == 1 && r[0].geometry == g
  {
    var min := Coord2D(c.axis, f.bbox.min);
    var max := Coord2D(c.axis, f.bbox.max);
    if Accepts(c.k1, c.k2, min, max) then [f]
    else if Rejects(c.k1, c.k2, min, max) then []
    else
      var g := ClipGeometry(c, f.geometry);
      if c.lineMetrics && g.MultiLineString? then
        MapSeq(g.lines, (l: LineString) => NewFeature(LineStringGeometry(l), f.properties, f.id))
      else
        [NewFeature(g, f.properties, f.id)]
  }

  /** The `clip` loop: every feature's output, in input order. */
  function ClipFeatures(c: Clipper, fs: seq<Feature>): (r: seq<Feature>)
    requires c.Valid()
    ensures !c.lineMetrics ==> |r| <= |fs|
    ensures forall o :: o in r ==> exists f :: f in fs && o.properties == f.properties && o.id == f.id
  {
    if fs == [] then []
    else
      var head := ClipFeature(c, fs[0]);
      var tail := ClipFeatures(c, fs[1..]);
      assert forall o :: o in head + tail ==> o in head || o in tail;
      head + tail
  }

  /** The loop's output is exactly what `ClipFeature` makes of the inputs:
      every output comes from some input, and every input's outputs are there. */
  lemma {:induction false} ClipFeaturesFrom(c: Clipper, fs: seq<Feature>)
    requires c.Valid()
    ensures forall o :: o in ClipFeatures(c, fs) ==> exists j :: 0 <= j < |fs| && o in ClipFeature(c, fs[j])
    ensures forall j, o :: 0 <= j < |fs| && o in ClipFeature(c, fs[j]) ==> o in ClipFeatures(c, fs)
  {
    if fs != [] {
      ClipFeaturesFrom(c, fs[1..]);
      var head, tail := ClipFeature(c, fs[0]), ClipFeatures(c, fs[1..]);
      assert ClipFeatures(c, fs) == head + tail;
      forall o | o in ClipFeatures(c, fs) ensures exists j :: 0 <= j < |fs| && o in ClipFeature(c, fs[j]) {
        if o !in head {
          var k :| 0 <= k < |fs[1..]| && o in ClipFeature(c, fs[1..][k]);
          assert fs[1..][k] == fs[k + 1];
        }
      }
      forall j, o | 0 <= j < |fs| && o in ClipFeature(c, fs[j]) ensures o in ClipFeatures(c, fs) {
        if j == 0 {
          assert o in head;
        } else {
          assert fs[j] == fs[1..][j - 1];
          assert o in tail;
        }
      }
    }
  }

  /** `clip`: the whole feature set against the band [k1, k2) along `axis`,
      given the set's aggregate range along that axis. */
  function Clip(axis: Axis, features: seq<Feature>, k1: real, k2: real,
                minAll: real, maxAll: real, lineMetrics: bool): (r: seq<Feature>)
    requires k1 <= k2
    ensures Accepts(k1, k2, minAll, maxAll) ==> r == features
    ensures !Accepts(k1, k2, minAll, maxAll) && Rejects(k1, k2, minAll, maxAll) ==> r == []
    ensures !lineMetrics ==> |r| <= |features|
  {
    if Accepts(k1, k2, minAll, maxAll) then features
    else if Rejects(k1, k2, minAll, maxAll) then []
    else ClipFeatures(Clipper(axis, k1, k2, lineMetrics), features)
  }
}

=== FILE: clip_props.dfy ===
/** Properties of the clipper that relate several calls, or a call to an
    independent description of its result. */
module ClipProps {
  import opened Seqs
  import opened Types
  import opened SlabClip

  /** Every point of `pts` lies in the band. */
  predicate AllInside(c: Clipper, pts: seq<Point>)
  {
    forall j :: 0 <= j < |pts| ==> c.Contains(pts[j])
  }

  /** Every point of `pts` lies before the band's lower end. */
  predicate AllBelow(c: Clipper, pts: seq<Point>)
  {
    forall j :: 0 <= j < |pts| ==> Coord(c.axis, pts[j]) < c.k1
  }

  /** A point far off the only segment is no crossing of it, so it cannot
      sit in a well-placed slice of that line. */
  lemma StrayPointNotInSlice()
    ensures !SliceOk(Clipper(X, 0.0, 1.0, false), [Point(-1.0, 0.0, 0.0), Point(2.0, 0.0, 0.0)],
                     [Point(0.0, 1000.0, 1.0)])
  {
    var c := Clipper(X, 0.0, 1.0, false);
    var pts := [Point(-1.0, 0.0, 0.0), Point(2.0, 0.0, 0.0)];
    var p := Point(0.0, 1000.0, 1.0);
    if IsCrossing(c, pts, p) {
      var j := CrossingOnSegment(c, pts, p);
      assert false;
    }
    assert p !in pts;
  }

  /** A single point survives exactly when it lies in the closed band. */
  lemma ClipMultiPointSingle(c: Clipper, p: Point)
    ensures ClipMultiPoint(c, [p]).points == if c.Contains(p) then [p] else []
  {
    assert [p][1..] == [];
  }

  /** Points all inside the band are kept, every one of them. */
  lemma ClipMultiPointInside(c: Clipper, ps: seq<Point>)
    requires AllInside(c, ps)
    ensures ClipMultiPoint(c, ps) == MultiPoint(ps)
  {
    FilterAll(ps, p => c.Contains(p));
  }

  lemma {:induction false} LineWalkInside(c: Clipper, pts: seq<Point>, i: nat)
    requires c.Valid() && AllInside(c, pts) && i + 1 < |pts|
    ensures LineWalk(c, pts, i, Walk([], pts[..i])) == Walk([], pts)
    decreases |pts| - i
  {
    var w := LineStep(c, pts, i, Walk([], pts[..i]));
    assert c.Contains(pts[i]) && c.Contains(pts[i + 1]);
    if i + 2 == |pts| {
      assert pts[..i] + [pts[i]] + [pts[i + 1]] == pts;
    } else {
      assert pts[..i] + [pts[i]] == pts[..i + 1];
      LineWalkInside(c, pts, i + 1);
    }
  }

  /** A line lying wholly in the band comes back as one slice holding all of
      its points. */
  lemma ClipLineInside(c: Clipper, line: LineString)
    requires c.Valid() && AllInside(c, line.elements) && |line.elements| >= 2
    ensures ClipLine(c, line) == [NewSlice(c, line).(elements := line.elements)]
  {
    assert line.elements[..0] == [];
    LineWalkInside(c, line.elements, 0);
  }

  lemma {:induction false} LineWalkBelow(c: Clipper, pts: seq<Point>, i: nat)
    requires c.Valid() && AllBelow(c, pts)
    ensures LineWalk(c, pts, i, Walk([], [])) == Walk([], [])
    decreases |pts| - i
  {
    if i + 1 < |pts| {
      assert Coord(c.axis, pts[i]) < c.k1 && Coord(c.axis, pts[i + 1]) < c.k1;
      LineWalkBelow(c, pts, i + 1);
    }
  }

  /** A line lying wholly before the band yields no slice. */
  lemma ClipLineBelow(c: Clipper, line: LineString)
    requires c.Valid() && AllBelow(c, line.elements)
    ensures ClipLine(c, line) == []
  {
    LineWalkBelow(c, line.elements, 0);
  }

  lemma {:induction false} RingWalkInside(c: Clipper, pts: seq<Point>, i: nat)
    requires c.Valid() && AllInside(c, pts) && i + 1 <= |pts|
    ensures RingWalk(c, pts, i, pts[..i]) == pts[..|pts| - 1]
    decreases |pts| - i
  {
    if i + 1 < |pts| {
      assert c.Contains(pts[i]) && c.Contains(pts[i + 1]);
      assert pts[..i] + [pts[i]] + [] == pts[..i + 1];
      RingWalkInside(c, pts, i + 1);
    }
  }

  /** A ring lying wholly in the band loses its last point to the walk and
      gets its first point back from the closing step; so a closed ring whose
      second-to-last point differs from its first comes back unchanged. */
  lemma ClipRingInside(c: Clipper, ring: LinearRing)
    requires c.Valid() && AllInside(c, ring.elements) && |ring.elements| >= 2
    ensures ClipRing(c, ring).elements == CloseRing(ring.elements[..|ring.elements| - 1])
    ensures (ring.elements[0] == ring.elements[|ring.elements| - 1]
             && ring.elements[0] != ring.elements[|ring.elements| - 2]) ==> ClipRing(c, ring) == ring
  {
    var pts := ring.elements;
    assert pts[..0] == [];
    RingWalkInside(c, pts, 0);
    if pts[0] == pts[|pts| - 1] && pts[0] != pts[|pts| - 2] {
      assert pts[..|pts| - 1] + [pts[0]] == pts;
    }
  }

  /** The feature loop distributes over concatenation: output order follows
      input order. */
  lemma {:induction false} ClipFeaturesConcat(c: Clipper, a: seq<Feature>, b: seq<Feature>)
    requires c.Valid()
    ensures ClipFeatures(c, a + b) == ClipFeatures(c, a) + ClipFeatures(c, b)
  {
    if a == [] {
      assert a + b == b;
    } else {
      assert (a + b)[0] == a[0];
      assert (a + b)[1..] == a[1..] + b;
      ClipFeaturesConcat(c, a[1..], b);
    }
  }

  /** The loop over one feature is that feature's own clip. */
  lemma ClipFeaturesSingle(c: Clipper, f: Feature)
    requires c.Valid()
    ensures ClipFeatures(c, [f]) == ClipFeature(c, f)
  {
  }

  /** When every feature's box is inside the band, every feature is copied. */
  lemma {:induction false} ClipFeaturesAllKept(c: Clipper, fs: seq<Feature>)
    requires c.Valid() && forall i :: 0 <= i < |fs| ==> KeptWhole(c, fs[i])
    ensures ClipFeatures(c, fs) == fs
  {
    if fs != [] {
      ClipFeaturesAllKept(c, fs[1..]);
    }
  }

  /** When every feature's box is outside the band, nothing is left. */
  lemma {:induction false} ClipFeaturesAllDropped(c: Clipper, fs: seq<Feature>)
    requires c.Valid() && forall i :: 0 <= i < |fs| ==> DroppedWhole(c, fs[i])
    ensures ClipFeatures(c, fs) == []
  {
    if fs != [] {
      ClipFeaturesAllDropped(c, fs[1..]);
    }
  }

  function P(x: real, y: real): Point { Point(x, y, 0.0) }

  function B(x: real, y: real): Point { Point(x, y, 1.0) }

  /** The fifteen vertices of the reference clipping scenario's polyline. */
  const ScenarioPoints: seq<Point> :=
    [P(0.0, 0.0), P(50.0, 0.0), P(50.0, 10.0), P(20.0, 10.0), P(20.0, 20.0),
     P(30.0, 20.0), P(30.0, 30.0), P(50.0, 30.0), P(50.0, 40.0), P(25.0, 40.0),
     P(25.0, 50.0), P(0.0, 50.0), P(0.0, 60.0), P(25.0, 60.0), P(30.0, 60.0)]

  const ScenarioClipper := Clipper(X, 10.0, 40.0, false)

  const S1 := [B(10.0, 0.0), B(40.0, 0.0)]
  const S2 := [B(40.0, 10.0), P(20.0, 10.0), P(20.0, 20.0), P(30.0, 20.0), P(30.0, 30.0), B(40.0, 30.0)]
  const S3 := [B(40.0, 40.0), P(25.0, 40.0), P(25.0, 50.0), B(10.0, 50.0)]
  const S4 := [B(10.0, 60.0), P(25.0, 60.0), P(30.0, 60.0)]

  /** Cutting a segment that runs straight along the clip axis keeps its
      other coordinate. */
  lemma CutLevel(c: Clipper, a: Point, b: Point, v: real)
    requires Coord(c.axis, a) != Coord(c.axis, b) && Other(c.axis, a) == Other(c.axis, b)
    ensures Cut(c, a, b, v) == (if c.axis == X then Point(v, a.y, 1.0) else Point(a.x, v, 1.0))
  {
  }

  /** A segment re-entering the band from above, not the last one, opens the
      current slice with the crossing at k2. */
  lemma StepEnterFromAbove(c: Clipper, pts: seq<Point>, i: nat, w: Walk)
    requires c.Valid() && i + 2 < |pts|
    requires Coord(c.axis, pts[i]) > c.k2 && c.k1 < Coord(c.axis, pts[i + 1]) < c.k2
    ensures LineStep(c, pts, i, w) == Walk(w.done, w.cur + [Cut(c, pts[i], pts[i + 1], c.k2)])
  {
  }

  /** A segment crossing the whole band upwards flushes the current slice
      extended by both crossings. */
  lemma StepCrossUp(c: Clipper, pts: seq<Point>, i: nat, w: Walk)
    requires c.Valid() && i + 1 < |pts|
    requires Coord(c.axis, pts[i]) < c.k1 && Coord(c.axis, pts[i + 1]) > c.k2
    ensures LineStep(c, pts, i, w) ==
      Walk(w.done + [w.cur + [Cut(c, pts[i], pts[i + 1], c.k1), Cut(c, pts[i], pts[i + 1], c.k2)]], [])
  {
  }

  /** A segment entering the band from below, not the last one, extends the
      current slice by the crossing at k1. */
  lemma StepEnterFromBelow(c: Clipper, pts: seq<Point>, i: nat, w: Walk)
    requires c.Valid() && i + 2 < |pts|
    requires Coord(c.axis, pts[i]) < c.k1 && c.k1 < Coord(c.axis, pts[i + 1]) <= c.k2
    ensures LineStep(c, pts, i, w) == Walk(w.done, w.cur + [Cut(c, pts[i], pts[i + 1], c.k1)])
  {
    assert w.cur + [Cut(c, pts[i], pts[i + 1], c.k1)] + [] == w.cur + [Cut(c, pts[i], pts[i + 1], c.k1)];
  }

  /** A segment leaving the band upwards flushes the current slice, extended
      by its start and the crossing at k2. */
  lemma StepLeaveUp(c: Clipper, pts: seq<Point>, i: nat, w: Walk)
    requires c.Valid() && i + 1 < |pts|
    requires c.Contains(pts[i]) && Coord(c.axis, pts[i + 1]) > c.k2
    ensures LineStep(c, pts, i, w) == Walk(w.done + [w.cur + [pts[i], Cut(c, pts[i], pts[i + 1], c.k2)]], [])
  {
    assert w.cur + [pts[i]] + [Cut(c, pts[i], pts[i + 1], c.k2)] == w.cur + [pts[i], Cut(c, pts[i], pts[i + 1], c.k2)];
  }

  /** A segment leaving the band downwards flushes the current slice,
      extended by its start and the crossing at k1. */
  lemma StepLeaveDown(c: Clipper, pts: seq<Point>, i: nat, w: Walk)
    requires c.Valid() && i + 1 < |pts|
    requires c.Contains(pts[i]) && Coord(c.axis, pts[i + 1]) < c.k1
    ensures LineStep(c, pts, i, w) == Walk(w.done + [w.cur + [pts[i], Cut(c, pts[i], pts[i + 1], c.k1)]], [])
  {
    assert w.cur + [pts[i]] + [Cut(c, pts[i], pts[i + 1], c.k1)] == w.cur + [pts[i], Cut(c, pts[i], pts[i + 1], c.k1)];
  }

  /** The walk state before segment `i` of the scenario. */
  function ScenarioState(i: nat): Walk
  {
    if i == 0 then Walk([], [])
    else if i == 1 then Walk([S1], [])
    else if i == 2 then Walk([S1], [])
    else if i == 3 then Walk([S1], [B(40.0, 10.0)])
    else if i == 4 then Walk([S1], [B(40.0, 10.0), P(20.0, 10.0)])
    else if i == 5 then Walk([S1], [B(40.0, 10.0), P(20.0, 10.0), P(20.0, 20.0)])
    else if i == 6 then Walk([S1], [B(40.0, 10.0), P(20.0, 10.0), P(20.0, 20.0), P(30.0, 20.0)])
    else if i == 7 then Walk([S1, S2], [])
    else if i == 8 then Walk([S1, S2], [])
    else if i == 9 then Walk([S1, S2], [B(40.0, 40.0)])
    else if i == 10 then Walk([S1, S2], [B(40.0, 40.0), P(25.0, 40.0)])
    else if i == 11 then Walk([S1, S2, S3], [])
    else if i == 12 then Walk([S1, S2, S3], [])
    else if i == 13 then Walk([S1, S2, S3], [B(10.0, 60.0)])
    else Walk([S1, S2, S3], S4)
  }

  lemma ScenarioStep0(pts: seq<Point>)
    requires |pts| == 15 && pts[0] == P(0.0, 0.0) && pts[1] == P(50.0, 0.0)
    ensures LineStep(ScenarioClipper, pts, 0, Walk([], [])) == Walk([S1], [])
  {
    var x := Cut(ScenarioClipper, pts[0], pts[1], 10.0);
    var y := Cut(ScenarioClipper, pts[0], pts[1], 40.0);
    assert x == B(10.0, 0.0) && y == B(40.0, 0.0) by {
      CutLevel(ScenarioClipper, pts[0], pts[1], 10.0);
      CutLevel(ScenarioClipper, pts[0], pts[1], 40.0);
    }
    assert LineStep(ScenarioClipper, pts, 0, Walk([], [])) == Walk([] + [[] + [x, y]], []) by {
      StepCrossUp(ScenarioClipper, pts, 0, Walk([], []));
    }
    assert [] + [x, y] == S1;
  }

  lemma ScenarioStep1(pts: seq<Point>)
    requires |pts| == 15 && pts[1] == P(50.0, 0.0) && pts[2] == P(50.0, 10.0)
    ensures LineStep(ScenarioClipper, pts, 1, Walk([S1], [])) == Walk([S1], [])
  {
  }

  lemma ScenarioStep2(pts: seq<Point>)
    requires |pts| == 15 && pts[2] == P(50.0, 10.0) && pts[3] == P(20.0, 10.0)
    ensures LineStep(ScenarioClipper, pts, 2, Walk([S1], [])) == Walk([S1], [B(40.0, 10.0)])
  {
    var x := Cut(ScenarioClipper, pts[2], pts[3], 40.0);
    assert x == B(40.0, 10.0) by {
      CutLevel(ScenarioClipper, pts[2], pts[3], 40.0);
    }
    assert LineStep(ScenarioClipper, pts, 2, Walk([S1], [])) == Walk([S1], [] + [x]) by {
      StepEnterFromAbove(ScenarioClipper, pts, 2, Walk([S1], []));
    }
    assert [] + [x] == [B(40.0, 10.0)];
  }

  lemma ScenarioStep3(pts: seq<Point>)
    requires |pts| == 15 && pts[3] == P(20.0, 10.0) && pts[4] == P(20.0, 20.0)
    ensures LineStep(ScenarioClipper, pts, 3, Walk([S1], [B(40.0, 10.0)])) == Walk([S1], [B(40.0, 10.0), P(20.0, 10.0)])
  {
  }

  lemma ScenarioStep4(pts: seq<Point>)
    requires |pts| == 15 && pts[4] == P(20.0, 20.0) && pts[5] == P(30.0, 20.0)
    ensures LineStep(ScenarioClipper, pts, 4, Walk([S1], [B(40.0, 10.0), P(20.0, 10.0)])) == Walk([S1], [B(40.0, 10.0), P(20.0, 10.0), P(20.0, 20.0)])
  {
  }

  lemma ScenarioStep5(pts: seq<Point>)
    requires |pts| == 15 && pts[5] == P(30.0, 20.0) && pts[6] == P(30.0, 30.0)
    ensures LineStep(ScenarioClipper, pts, 5, Walk([S1], [B(40.0, 10.0), P(20.0, 10.0), P(20.0, 20.0)])) == Walk([S1], [B(40.0, 10.0), P(20.0, 10.0), P(20.0, 20.0), P(30.0, 20.0)])
  {
  }

  lemma ScenarioStep6(pts: seq<Point>)
    requires |pts| == 15 && pts[6] == P(30.0, 30.0) && pts[7] == P(50.0, 30.0)
    ensures LineStep(ScenarioClipper, pts, 6, Walk([S1], [B(40.0, 10.0), P(20.0, 10.0), P(20.0, 20.0), P(30.0, 20.0)])) == Walk([S1, S2], [])
  {
    var cur := [B(40.0, 10.0), P(20.0, 10.0), P(20.0, 20.0), P(30.0, 20.0)];
    var x := Cut(ScenarioClipper, pts[6], pts[7], 40.0);
    assert x == B(40.0, 30.0) by {
      CutLevel(ScenarioClipper, pts[6], pts[7], 40.0);
    }
    assert LineStep(ScenarioClipper, pts, 6, Walk([S1], cur)) == Walk([S1] + [cur + [pts[6], x]], []) by {
      StepLeaveUp(ScenarioClipper, pts, 6, Walk([S1], cur));
    }
    assert cur + [pts[6], x] == S2;
  }

  lemma ScenarioStep7(pts: seq<Point>)
    requires |pts| == 15 && pts[7] == P(50.0, 30.0) && pts[8] == P(50.0, 40.0)
    ensures LineStep(ScenarioClipper, pts, 7, Walk([S1, S2], [])) == Walk([S1, S2], [])
  {
  }

  lemma ScenarioStep8(pts: seq<Point>)
    requires |pts| == 15 && pts[8] == P(50.0, 40.0) && pts[9] == P(25.0, 40.0)
    ensures LineStep(ScenarioClipper, pts, 8, Walk([S1, S2], [])) == Walk([S1, S2], [B(40.0, 40.0)])
  {
    var x := Cut(ScenarioClipper, pts[8], pts[9], 40.0);
    assert x == B(40.0, 40.0) by {
      CutLevel(ScenarioClipper, pts[8], pts[9], 40.0);
    }
    assert LineStep(ScenarioClipper, pts, 8, Walk([S1, S2], [])) == Walk([S1, S2], [] + [x]) by {
      StepEnterFromAbove(ScenarioClipper, pts, 8, Walk([S1, S2], []));
    }
    assert [] + [x] == [B(40.0, 40.0)];
  }

  lemma ScenarioStep9(pts: seq<Point>)
    requires |pts| == 15 && pts[9] == P(25.0, 40.0) && pts[10] == P(25.0, 50.0)
    ensures LineStep(ScenarioClipper, pts, 9, Walk([S1, S2], [B(40.0, 40.0)])) == Walk([S1, S2], [B(40.0, 40.0), P(25.0, 40.0)])
  {
  }

  lemma ScenarioStep10(pts: seq<Point>)
    requires |pts| == 15 && pts[10] == P(25.0, 50.0) && pts[11] == P(0.0, 50.0)
    ensures LineStep(ScenarioClipper, pts, 10, Walk([S1, S2], [B(40.0, 40.0), P(25.0, 40.0)])) == Walk([S1, S2, S3], [])
  {
    var cur := [B(40.0, 40.0), P(25.0, 40.0)];
    var x := Cut(ScenarioClipper, pts[10], pts[11], 10.0);
    assert x == B(10.0, 50.0) by {
      CutLevel(ScenarioClipper, pts[10], pts[11], 10.0);
    }
    assert LineStep(ScenarioClipper, pts, 10, Walk([S1, S2], cur)) == Walk([S1, S2] + [cur + [pts[10], x]], []) by {
      StepLeaveDown(ScenarioClipper, pts, 10, Walk([S1, S2], cur));
    }
    assert cur + [pts[10], x] == S3;
  }

  lemma ScenarioStep11(pts: seq<Point>)
    requires |pts| == 15 && pts[11] == P(0.0, 50.0) && pts[12] == P(0.0, 60.0)
    ensures LineStep(ScenarioClipper, pts, 11, Walk([S1, S2, S3], [])) == Walk([S1, S2, S3], [])
  {
  }

  lemma ScenarioStep12(pts: seq<Point>)
    requires |pts| == 15 && pts[12] == P(0.0, 60.0) && pts[13] == P(25.0, 60.0)
    ensures LineStep(ScenarioClipper, pts, 12, Walk([S1, S2, S3], [])) == Walk([S1, S2, S3], [B(10.0, 60.0)])
  {
    var x := Cut(ScenarioClipper, pts[12], pts[13], 10.0);
    assert x == B(10.0, 60.0) by {
      CutLevel(ScenarioClipper, pts[12], pts[13], 10.0);
    }
    assert LineStep(ScenarioClipper, pts, 12, Walk([S1, S2, S3], [])) == Walk([S1, S2, S3], [] + [x]) by {
      StepEnterFromBelow(ScenarioClipper, pts, 12, Walk([S1, S2, S3], []));
    }
    assert [] + [x] == [B(10.0, 60.0)];
  }

  lemma ScenarioStep13(pts: seq<Point>)
    requires |pts| == 15 && pts[13] == P(25.0, 60.0) && pts[14] == P(30.0, 60.0)
    ensures LineStep(ScenarioClipper, pts, 13, Walk([S1, S2, S3], [B(10.0, 60.0)])) == Walk([S1, S2, S3], S4)
  {
    assert [B(10.0, 60.0)] + [pts[13]] + [pts[14]] == S4;
  }

  /** Each segment moves the walk from one scenario state to the next. */
  lemma ScenarioStep(pts: seq<Point>, i: nat)
    requires pts == ScenarioPoints && i < 14
    ensures LineStep(ScenarioClipper, pts, i, ScenarioState(i)) == ScenarioState(i + 1)
  {
    if i == 0 {
      ScenarioStep0(pts);
    } else if i == 1 {
      ScenarioStep1(pts);
    } else if i == 2 {
      ScenarioStep2(pts);
    } else if i == 3 {
      ScenarioStep3(pts);
    } else if i == 4 {
      ScenarioStep4(pts);
    } else if i == 5 {
      ScenarioStep5(pts);
    } else if i == 6 {
      ScenarioStep6(pts);
    } else if i == 7 {
      ScenarioStep7(pts);
    } else if i == 8 {
      ScenarioStep8(pts);
    } else if i == 9 {
      ScenarioStep9(pts);
    } else if i == 10 {
      ScenarioStep10(pts);
    } else if i == 11 {
      ScenarioStep11(pts);
    } else if i == 12 {
      ScenarioStep12(pts);
    } else if i == 13 {
      ScenarioStep13(pts);
    }
  }

  lemma {:induction false} ScenarioWalk(pts: seq<Point>, i: nat)
    requires pts == ScenarioPoints && i <= 14
    ensures LineWalk(ScenarioClipper, pts, i, ScenarioState(i)) == ScenarioState(14)
    decreases 14 - i
  {
    if i < 14 {
      ScenarioStep(pts, i);
      ScenarioWalk(pts, i + 1);
    }
  }

  /** `clip_line` emits one slice per flushed walk slice, in order, then the
      unfinished one when it is not empty. */
  lemma ClipLineOfWalk(c: Clipper, line: LineString, done: seq<seq<Point>>, cur: seq<Point>)
    requires c.Valid() && |line.elements| >= 2
    requires LineWalk(c, line.elements, 0, Walk([], [])) == Walk(done, cur)
    ensures |ClipLine(c, line)| == |done| + (if cur != [] then 1 else 0)
    ensures forall k :: 0 <= k < |done| ==> ClipLine(c, line)[k] == NewSlice(c, line).(elements := done[k])
    ensures cur != [] ==> ClipLine(c, line)[|done|] == NewSlice(c, line).(elements := cur)
  {
  }

  /** A vertex reached from below exactly on k1, with the line going on
      inside the band, is pushed twice: once by the entering segment and
      again as the start of the next one. */
  lemma ClipLineRepeatsEntry(c: Clipper, line: LineString)
    requires c.Valid() && |line.elements| == 3
    requires Coord(c.axis, line.elements[0]) < c.k1 == Coord(c.axis, line.elements[1])
    requires c.k1 <= Coord(c.axis, line.elements[2]) <= c.k2
    ensures ClipLine(c, line) ==
      [NewSlice(c, line).(elements := [line.elements[1], line.elements[1], line.elements[2]])]
  {
    var pts := line.elements;
    var w1 := LineStep(c, pts, 0, Walk([], []));
    assert w1 == Walk([], [pts[1]]);
    var w2 := LineStep(c, pts, 1, w1);
    assert w2 == Walk([], [pts[1], pts[1], pts[2]]);
    assert LineWalk(c, pts, 1, w1) == LineWalk(c, pts, 2, w2) == w2;
    ClipLineOfWalk(c, line, [], w2.cur);
    var r := ClipLine(c, line);
    assert r == [r[0]];
  }

  /** A walk that flushes three slices and ends inside the band with a
      fourth makes `clip_line` return those four, in order. */
  lemma ClipLineFourSlices(c: Clipper, line: LineString, s1: seq<Point>, s2: seq<Point>, s3: seq<Point>, s4: seq<Point>)
    requires c.Valid() && |line.elements| >= 2 && s4 != []
    requires LineWalk(c, line.elements, 0, Walk([], [])) == Walk([s1, s2, s3], s4)
    ensures ClipLine(c, line) ==
      [ NewSlice(c, line).(elements := s1), NewSlice(c, line).(elements := s2),
        NewSlice(c, line).(elements := s3), NewSlice(c, line).(elements := s4) ]
  {
    ClipLineOfWalk(c, line, [s1, s2, s3], s4);
    var r := ClipLine(c, line);
    assert r == [r[0], r[1], r[2], r[3]];
  }

  /** Clipping the scenario polyline to 10 <= x <= 40 without line metrics
      yields exactly four slices, boundary crossings marked with importance 1;
      each slice carries the line's length and no segment bounds. */
  lemma ClipLineScenario(line: LineString)
    requires line.elements == ScenarioPoints
    ensures ClipLine(ScenarioClipper, line) ==
      [ LineString(S1, line.dist, 0.0, 0.0), LineString(S2, line.dist, 0.0, 0.0),
        LineString(S3, line.dist, 0.0, 0.0), LineString(S4, line.dist, 0.0, 0.0) ]
  {
    assert LineWalk(ScenarioClipper, line.elements, 0, Walk([], [])) == Walk([S1, S2, S3], S4) by {
      ScenarioWalk(line.elements, 0);
    }
    ClipLineFourSlices(ScenarioClipper, line, S1, S2, S3, S4);
  }
}

=== FILE: outcomes.dfy ===
/** Failure-carrying results for the operations whose Rust source panics or
    returns an optional value. */
module Outcomes {

  /** An optional value: `Option<T>` in the source. */
  datatype Option<+T> = None | Some(value: T)

  /** Why an operation aborted. Each case names one `panic!` of the source. */
  datatype PanicReason =
    | AxisOutOfRange   // GetCoordinate with an axis index other than 0 or 1
    | ZoomTooHigh      // get_tile above max_zoom
    | ParentNotFound   // get_tile found no materialised ancestor

  /** The value an operation returns, or the panic it raises instead. */
  datatype Result<+T> = Ok(value: T) | Panic(reason: PanicReason)
}

=== FILE: seqs.dfy ===
/** Order-preserving sequence combinators shared by the clipper and the
    geometry walkers, with the facts about them that the model relies on. */
module Seqs {

  /** The elements of `s` that satisfy `keep`, in their original order. */
  function Filter<T>(s: seq<T>, keep: T -> bool): (r: seq<T>)
    ensures |r| <= |s|
    ensures forall i :: 0 <= i < |r| ==> r[i] in s && keep(r[i])
    ensures forall i :: 0 <= i < |s| && keep(s[i]) ==> s[i] in r
  {
    if s == [] then []
    else (if keep(s[0]) then [s[0]] else []) + Filter(s[1..], keep)
  }

  /** Filtering distributes over concatenation: survivors keep their relative order. */
  lemma {:induction false} FilterConcat<T>(a: seq<T>, b: seq<T>, keep: T -> bool)
    ensures Filter(a + b, keep) == Filter(a, keep) + Filter(b, keep)
  {
    if a == [] {
      assert a + b == b;
    } else {
      assert (a + b)[0] == a[0];
      assert (a + b)[1..] == a[1..] + b;
      FilterConcat(a[1..], b, keep);
    }
  }

  /** When every element is kept, filtering is the identity. */
  lemma {:induction false} FilterAll<T>(s: seq<T>, keep: T -> bool)
    requires forall i :: 0 <= i < |s| ==> keep(s[i])
    ensures Filter(s, keep) == s
  {
    if s != [] {
      FilterAll(s[1..], keep);
    }
  }

  /** `f` applied to every element, in order. */
  function MapSeq<T, U>(s: seq<T>, f: T -> U): (r: seq<U>)
    ensures |r| == |s|
    ensures forall i :: 0 <= i < |s| ==> r[i] == f(s[i])
  {
    seq(|s|, i requires 0 <= i < |s| => f(s[i]))
  }

  /** The concatenation of all the sequences in `ss`, in order. */
  function Flatten<T>(ss: seq<seq<T>>): (r: seq<T>)
  {
    if ss == [] then [] else ss[0] + Flatten(ss[1..])
  }

  /** Every element of a flattened sequence comes from one of its parts. */
  lemma {:induction false} FlattenMember<T>(ss: seq<seq<T>>, x: T)
    requires x in Flatten(ss)
    ensures exists i :: 0 <= i < |ss| && x in ss[i]
  {
    if ss != [] {
      if x !in ss[0] {
        FlattenMember(ss[1..], x);
        var i :| 0 <= i < |ss[1..]| && x in ss[1..][i];
        assert x in ss[i + 1];
      }
    }
  }

  /** An element of a prefix is an element of the whole. */
  lemma PrefixMember<T>(a: seq<T>, b: seq<T>, x: T)
    requires a <= b && x in a
    ensures x in b
  {
    var i :| 0 <= i < |a| && a[i] == x;
    assert b[i] == x;
  }

  /** Flattening one more part appends that part. */
  lemma {:induction false} FlattenSnoc<T>(ss: seq<seq<T>>, s: seq<T>)
    ensures Flatten(ss + [s]) == Flatten(ss) + s
  {
    if ss == [] {
      assert ss + [s] == [s];
      assert Flatten([s]) == s + Flatten([]);
    } else {
      assert (ss + [s])[0] == ss[0];
      assert (ss + [s])[1..] == ss[1..] + [s];
      FlattenSnoc(ss[1..], s);
    }
  }

  /** Mapping over the parts and then flattening equals flattening and then mapping. */
  lemma {:induction false} FlattenMapSeq<T, U>(ss: seq<seq<T>>, ts: seq<seq<U>>, f: T -> U)
    requires |ts| == |ss|
    requires forall i :: 0 <= i < |ss| ==> ts[i] == MapSeq(ss[i], f)
    ensures Flatten(ts) == MapSeq(Flatten(ss), f)
  {
    if ss != [] {
      FlattenMapSeq(ss[1..], ts[1..], f);
      MapSeqConcat(ss[0], Flatten(ss[1..]), f);
    }
  }

  /** Mapping distributes over concatenation. */
  lemma MapSeqConcat<T, U>(a: seq<T>, b: seq<T>, f: T -> U)
    ensures MapSeq(a + b, f) == MapSeq(a, f) + MapSeq(b, f)
  {
  }
}

=== FILE: tile_id.dfy ===
/** Tile keys (src/lib.rs): the packing of (z, x, y) into one integer, the
    x wrap-around of `get_tile`, and the keys of a tile's ancestors. */
module TileId {

  /** Zoom levels are below 32: the source shifts a 32-bit one by `z`. */
  const ZoomLimit: nat := 32

  /** 2^n, the number of tiles along one side at zoom n. */
  function Pow2(n: nat): (r: nat)
    ensures r >= 1
  {
    if n == 0 then 1 else 2 * Pow2(n - 1)
  }

  lemma {:induction false} Pow2Add(a: nat, b: nat)
    ensures Pow2(a + b) == Pow2(a) * Pow2(b)
  {
    if a > 0 {
      Pow2Add(a - 1, b);
      assert Pow2(a + b) == 2 * Pow2(a - 1 + b);
    }
  }

  lemma {:induction false} Pow2Monotone(a: nat, b: nat)
    requires a <= b
    ensures Pow2(a) <= Pow2(b)
  {
    if a < b {
      Pow2Monotone(a, b - 1);
    }
  }

  lemma MulStep(d: int, a: int, b: int)
    requires d > 0 && a < b
    ensures d * a + d <= d * b
  {
    var e := b - a - 1;
    assert e >= 0;
    assert d * e >= 0;
    assert d * b == d * a + d + d * e;
  }

  /** Dividing a natural number gives a natural quotient and remainder. */
  lemma DivModNat(n: nat, d: nat)
    requires d > 0
    ensures 0 <= n / d && 0 <= n % d < d
  {
    assert n == d * (n / d) + n % d;
    if n / d < 0 {
      MulStep(d, n / d, 0);
    }
  }

  /** Quotient and remainder are determined by any decomposition with a
      remainder below the divisor. */
  lemma DivModUnique(n: int, d: int, q: int, r: int)
    requires d > 0 && 0 <= r < d && n == d * q + r
    ensures n / d == q && n % d == r
  {
    var q' := n / d;
    var r' := n % d;
    assert n == d * q' + r' && 0 <= r' < d;
    if q' < q {
      MulStep(d, q', q);
      assert false;
    } else if q < q' {
      MulStep(d, q, q');
      assert false;
    }
  }

  /** The row-major position of column x, row y in the grid of zoom z,
      built by doubling the row once per level. */
  function GridIndex(z: nat, x: nat, y: nat): nat
  {
    if z == 0 then y + x else GridIndex(z - 1, x, 2 * y)
  }

  /** The position is y * 2^z + x. */
  lemma {:induction false} GridIndexRowMajor(z: nat, x: nat, y: nat)
    ensures GridIndex(z, x, y) == Pow2(z) * y + x
  {
    if z > 0 {
      GridIndexRowMajor(z - 1, x, 2 * y);
      assert Pow2(z - 1) * (2 * y) == Pow2(z) * y;
    }
  }

  /** `to_id`: the key of tile (z, x, y). For a valid zoom, the low five bits
      hold the zoom and the rest the tile's row-major grid position. */
  function ToId(z: nat, x: nat, y: nat): (r: nat)
    ensures z < ZoomLimit ==> r % 32 == z && r / 32 == GridIndex(z, x, y)
  {
    var r := GridIndex(z, x, y) * 32 + z;
    assert z < ZoomLimit ==> r % 32 == z && r / 32 == GridIndex(z, x, y) by {
      if z < ZoomLimit {
        DivModUnique(r, 32, GridIndex(z, x, y), z);
      }
    }
    r
  }

  /** The key is `((2^z * y) + x) * 32 + z`. */
  lemma ToIdFormula(z: nat, x: nat, y: nat)
    ensures ToId(z, x, y) == (Pow2(z) * y + x) * 32 + z
  {
    GridIndexRowMajor(z, x, y);
  }

  /** Unpacks a key into (z, x, y). */
  function FromId(id: nat): (nat, nat, nat)
  {
    var z := id % 32;
    var q := id / 32;
    var p := Pow2(z);
    DivModNat(q, p);
    (z, q % p, q / p)
  }

  /** Unpacking a key gives back the tile, whenever z is a valid zoom and x
      lies in the row; y needs no bound. */
  lemma ToIdRoundTrip(z: nat, x: nat, y: nat)
    requires z < ZoomLimit && x < Pow2(z)
    ensures FromId(ToId(z, x, y)) == (z, x, y)
  {
    var q := GridIndex(z, x, y);
    GridIndexRowMajor(z, x, y);
    DivModUnique(ToId(z, x, y), 32, q, z);
    DivModUnique(q, Pow2(z), y, x);
  }

  /** Distinct valid tiles get distinct keys. */
  lemma ToIdInjective(z1: nat, x1: nat, y1: nat, z2: nat, x2: nat, y2: nat)
    requires z1 < ZoomLimit && x1 < Pow2(z1)
    requires z2 < ZoomLimit && x2 < Pow2(z2)
    ensures ToId(z1, x1, y1) == ToId(z2, x2, y2) <==> (z1, x1, y1) == (z2, x2, y2)
  {
    ToIdRoundTrip(z1, x1, y1);
    ToIdRoundTrip(z2, x2, y2);
  }

  /** Inside the grid, the row-major index y * 2^z + x is below 2^(2z). */
  lemma GridIndexBound(z: nat, x: nat, y: nat)
    requires x < Pow2(z) && y < Pow2(z)
    ensures Pow2(z) * y + x < Pow2(z + z)
  {
    var p := Pow2(z);
    if y < p - 1 {
      MulStep(p, y, p - 1);
    }
    assert p * y <= p * (p - 1);
    assert p * (p - 1) + p == p * p;
    Pow2Add(z, z);
  }

  /** For z <= 29 and x, y inside the grid the key fits in 64 bits, so the
      source's u64 arithmetic does not wrap. */
  lemma ToIdFitsU64(z: nat, x: nat, y: nat)
    requires z <= 29 && x < Pow2(z) && y < Pow2(z)
    ensures ToId(z, x, y) < Pow2(64)
  {
    var q := GridIndex(z, x, y);
    GridIndexRowMajor(z, x, y);
    GridIndexBound(z, x, y);
    var sq := Pow2(z + z);
    assert q + 1 <= sq;
    assert ToId(z, x, y) == q * 32 + z;
    assert q * 32 + 32 <= sq * 32;
    Pow2Add(z + z, 5);
    Pow2Five();
    Pow2Monotone(z + z + 5, 64);
  }

  /** Past 64 bits the source's u64 key wraps around: at zoom 28 the key of
      row 2^31 exceeds that of row 0 in the same column by exactly 2^64, so
      the two collide modulo 2^64. */
  lemma ToIdWrapsAtZoom28(x: nat)
    ensures ToId(28, x, Pow2(31)) == Pow2(64) + ToId(28, x, 0)
  {
    ToIdFormula(28, x, Pow2(31));
    ToIdFormula(28, x, 0);
    Pow2Add(28, 31);
    Pow2Add(59, 5);
    Pow2Five();
  }

  lemma Pow2Five()
    ensures Pow2(5) == 32
  {
    assert Pow2(1) == 2;
    assert Pow2(2) == 4;
    assert Pow2(3) == 8;
    assert Pow2(4) == 16;
  }

  /** The root tile has key 0. */
  lemma ToIdRoot()
    ensures ToId(0, 0, 0) == 0
  {
    assert GridIndex(0, 0, 0) == 0;
  }

  /** A key spelled out: zoom 5, column 19, row 9. */
  lemma ToIdExample()
    ensures ToId(5, 19, 9) == 9829
  {
    assert GridIndex(5, 19, 9) == GridIndex(0, 19, 288);
  }

  /** The x wrap-around of `get_tile`: `((x % 2^z) + 2^z) % 2^z`. */
  function WrapX(x: nat, z: nat): (r: nat)
    ensures r == x % Pow2(z) && r < Pow2(z)
  {
    var p := Pow2(z);
    DivModUnique(x % p + p, p, 1, x % p);
    ((x % p) + p) % p
  }

  /** `x >> k`: k successive halvings, as `find_parent` walks upwards. */
  function Shr(x: nat, k: nat): nat
  {
    if k == 0 then x else Shr(x / 2, k - 1)
  }

  /** Halving once and then dividing by 2^k divides by 2^(k+1). */
  lemma DivPow2Step(x: nat, k: nat)
    ensures (x / 2) / Pow2(k) == x / Pow2(k + 1)
  {
    var p := Pow2(k);
    var h := x / 2;
    var q := h / p;
    var s := h % p;
    assert x == 2 * h + x % 2;
    assert h == p * q + s;
    assert x == (2 * p) * q + (2 * s + x % 2);
    DivModUnique(x, 2 * p, q, 2 * s + x % 2);
  }

  /** Repeated halving is division by a power of two, which is the
      `floor(cx / 2^(cz - z))` of `split_tile`'s ancestor test. */
  lemma {:induction false} ShrIsDivision(x: nat, k: nat)
    ensures Shr(x, k) == x / Pow2(k)
  {
    if k > 0 {
      ShrIsDivision(x / 2, k - 1);
      DivPow2Step(x, k - 1);
    }
  }

  /** A coordinate inside the grid at zoom k halves down to the root column. */
  lemma {:induction false} ShrInsideGrid(x: nat, k: nat)
    requires x < Pow2(k)
    ensures Shr(x, k) == 0
  {
    if k > 0 {
      ShrInsideGrid(x / 2, k - 1);
    }
  }

  /** The key of the ancestor `k` levels above (z, x, y). */
  function AncestorKey(z: nat, x: nat, y: nat, k: nat): nat
    requires k <= z
  {
    ToId(z - k, Shr(x, k), Shr(y, k))
  }

  /** The nearest ancestor is the parent; the farther ones are the parent's ancestors. */
  lemma AncestorKeyStep(z: nat, x: nat, y: nat, k: nat)
    requires 1 <= z && k + 1 <= z
    ensures AncestorKey(z, x, y, 1) == ToId(z - 1, x / 2, y / 2)
    ensures AncestorKey(z, x, y, k + 1) == AncestorKey(z - 1, x / 2, y / 2, k)
  {
    assert Shr(x, 1) == Shr(x / 2, 0);
    assert Shr(y, 1) == Shr(y / 2, 0);
  }
}

=== FILE: tile_index.dfy ===
/** The quadtree tile index of `GeoJSONVT` (src/lib.rs): options and their
    defaults, the tile map with its statistics, the insert-once
    `split_tile` recursion, `find_parent` and `get_tile`. Building a
    tile's own content (`InternalTile::new`) is an opaque function. */
module TileIndex {
  import opened Outcomes
  import opened Types
  import opened SlabClip
  import opened Wrap
  import opened TileId

  /** `TileOptions`; extent and buffer are unsigned 16-bit in the source. */
  datatype TileOptions = TileOptions(tolerance: real, extent: nat, buffer: nat, lineMetrics: bool)

  /** `Options`. */
  datatype Options = Options(maxZoom: nat, indexMaxZoom: nat, indexMaxPoints: nat,
                             generateId: bool, tile: TileOptions)

  const DefaultTileOptions := TileOptions(3.0, 4096, 64, false)
  const DefaultOptions := Options(18, 5, 100000, false, DefaultTileOptions)

  /** The defaults satisfy the option invariant; the clip padding they give
      is 1/128 of a tile, and the deepest zoom is simplified with tolerance 0. */
  lemma DefaultOptionsValid()
    ensures ValidOptions(DefaultOptions)
    ensures Padding(DefaultOptions) == 1.0 / 128.0
    ensures TileTolerance(DefaultOptions, 18) == 0.0
    ensures TileTolerance(DefaultOptions, 0) == 3.0 / 4096.0
  {
  }

  /** Zooms must fit the 32-bit shifts and the extent must be a divisor. */
  predicate ValidOptions(o: Options)
  {
    o.maxZoom < ZoomLimit && o.indexMaxZoom < ZoomLimit && o.tile.extent > 0
  }

  /** `Tile`: the rendered content of one tile. */
  datatype Tile = Tile(features: seq<Feature>, numPoints: nat, numSimplified: nat)

  /** `EMPTY_TILE`, returned when drilling down produced nothing. */
  const EmptyTile := Tile([], 0, 0)

  /** What building a tile yields: its bounding box and its content. */
  datatype TileContent = TileContent(bbox: BBox, tile: Tile)

  /** `InternalTile::new(features, z, x, y, extent, tolerance, line_metrics)`,
      whose body is not part of this model: a parameter of every operation. */
  type Builder = (seq<Feature>, nat, nat, nat, real) -> TileContent

  /** `InternalTile`: a tile of the index, with the source features it
      retains for later drilling down. */
  datatype InternalTile = InternalTile(z: nat, x: nat, y: nat, tolerance: real,
                                       sourceFeatures: seq<Feature>, bbox: BBox, tile: Tile)

  function NewInternalTile(build: Builder, features: seq<Feature>, z: nat, x: nat, y: nat,
                           tolerance: real): (t: InternalTile)
    ensures t.z == z && t.x == x && t.y == y && t.tolerance == tolerance
    ensures t.sourceFeatures == []
  {
    var content := build(features, z, x, y, tolerance);
    InternalTile(z, x, y, tolerance, [], content.bbox, content.tile)
  }

  /** The simplification tolerance of a new tile: zero at `max_zoom`,
      otherwise the option scaled down by 2^z times the extent. */
  function TileTolerance(o: Options, z: nat): (t: real)
    requires o.tile.extent > 0
    ensures z == o.maxZoom ==> t == 0.0
    ensures z != o.maxZoom && o.tile.tolerance >= 0.0 ==> 0.0 <= t <= o.tile.tolerance
  {
    if z == o.maxZoom then 0.0
    else
      var d := Pow2(z) as real * o.tile.extent as real;
      assert d >= 1.0;
      DivideByAtLeastOne(o.tile.tolerance, d);
      o.tile.tolerance / d
  }

  lemma DivideByAtLeastOne(a: real, d: real)
    requires d >= 1.0
    ensures a >= 0.0 ==> 0.0 <= a / d <= a
  {
    assert a / d * d == a;
  }

  /** `GeoJSONVT`: options, per-zoom tile counts, the total and the tile map. */
  datatype Index = Index(options: Options, stats: map<nat, nat>, total: nat,
                         tiles: map<nat, InternalTile>)

  /** `stats[z]`, absent counting as zero. */
  function StatsAt(stats: map<nat, nat>, z: nat): nat
  {
    if z in stats then stats[z] else 0
  }

  /** The sum of the counts for the zooms below n. */
  function StatsSum(stats: map<nat, nat>, n: nat): nat
  {
    if n == 0 then 0 else StatsSum(stats, n - 1) + StatsAt(stats, n - 1)
  }

  /** Bumping one zoom's count bumps the sum over any range containing it. */
  lemma {:induction false} StatsSumBump(stats: map<nat, nat>, z: nat, n: nat)
    ensures StatsSum(stats[z := StatsAt(stats, z) + 1], n)
            == StatsSum(stats, n) + (if z < n then 1 else 0)
  {
    if n > 0 {
      StatsSumBump(stats, z, n - 1);
    }
  }

  lemma {:induction false} StatsSumEmpty(n: nat)
    ensures StatsSum(map[], n) == 0
  {
    if n > 0 {
      StatsSumEmpty(n - 1);
    }
  }

  /** Every entry lies on the grid of its zoom and is stored under its own key. */
  predicate WellKeyed(tiles: map<nat, InternalTile>)
  {
    forall k :: k in tiles ==>
      tiles[k].z < ZoomLimit && tiles[k].x < Pow2(tiles[k].z) && tiles[k].y < Pow2(tiles[k].z)
      && k == ToId(tiles[k].z, tiles[k].x, tiles[k].y)
  }

  /** The index invariant: `total` counts the tiles and equals the sum of `stats`. */
  predicate Valid(s: Index)
  {
    && ValidOptions(s.options)
    && s.total == |s.tiles|
    && (forall z :: z in s.stats ==> z < ZoomLimit)
    && s.total == StatsSum(s.stats, ZoomLimit)
    && WellKeyed(s.tiles)
  }

  /** Two versions of an entry that differ at most in their source features. */
  predicate SameTile(a: InternalTile, b: InternalTile)
  {
    a.(sourceFeatures := []) == b.(sourceFeatures := [])
  }

  /** Every entry of `before` is still in `after`, unchanged but for its sources. */
  predicate Persists(before: map<nat, InternalTile>, after: map<nat, InternalTile>)
  {
    forall k :: k in before ==> k in after && SameTile(before[k], after[k])
  }

  lemma WellKeyedInsert(tiles: map<nat, InternalTile>, id: nat, entry: InternalTile)
    requires WellKeyed(tiles)
    requires entry.z < ZoomLimit && entry.x < Pow2(entry.z) && entry.y < Pow2(entry.z)
    requires id == ToId(entry.z, entry.x, entry.y)
    ensures WellKeyed(tiles[id := entry])
  {
    var t := tiles[id := entry];
    forall k | k in t
      ensures t[k].z < ZoomLimit && t[k].x < Pow2(t[k].z) && t[k].y < Pow2(t[k].z)
              && k == ToId(t[k].z, t[k].x, t[k].y)
    {
      if k != id {
        assert t[k] == tiles[k];
      }
    }
  }

  /** Adding a new, well-placed entry and counting it at its zoom keeps
      the index valid and every other entry and count in place. */
  function Inserted(s: Index, id: nat, entry: InternalTile): (r: Index)
    requires Valid(s) && id !in s.tiles
    requires entry.z < ZoomLimit && entry.x < Pow2(entry.z) && entry.y < Pow2(entry.z)
    requires id == ToId(entry.z, entry.x, entry.y)
    ensures Valid(r) && r.options == s.options
    ensures r.tiles.Keys == s.tiles.Keys + {id} && r.tiles[id] == entry
    ensures Persists(s.tiles, r.tiles)
    ensures r.total == s.total + 1
    ensures StatsAt(r.stats, entry.z) == StatsAt(s.stats, entry.z) + 1
    ensures forall z :: z != entry.z ==> StatsAt(r.stats, z) == StatsAt(s.stats, z)
  {
    InsertedValid(s, id, entry);
    Index(s.options, s.stats[entry.z := StatsAt(s.stats, entry.z) + 1], s.total + 1, s.tiles[id := entry])
  }

  lemma InsertedValid(s: Index, id: nat, entry: InternalTile)
    requires Valid(s) && id !in s.tiles
    requires entry.z < ZoomLimit && entry.x < Pow2(entry.z) && entry.y < Pow2(entry.z)
    requires id == ToId(entry.z, entry.x, entry.y)
    ensures Valid(Index(s.options, s.stats[entry.z := StatsAt(s.stats, entry.z) + 1], s.total + 1,
                        s.tiles[id := entry]))
  {
    StatsSumBump(s.stats, entry.z, ZoomLimit);
    var tiles := s.tiles[id := entry];
    assert |tiles| == |s.tiles| + 1;
    WellKeyedInsert(s.tiles, id, entry);
  }

  /** The "try insert" of `split_tile`: a tile is built and counted only on
      the first visit of its key; otherwise the index is unchanged. */
  function TryInsert(build: Builder, s: Index, features: seq<Feature>, z: nat, x: nat, y: nat): (r: Index)
    requires Valid(s) && z < ZoomLimit && x < Pow2(z) && y < Pow2(z)
    ensures Valid(r) && r.options == s.options
    ensures r.tiles.Keys == s.tiles.Keys + {ToId(z, x, y)}
    ensures Persists(s.tiles, r.tiles)
    ensures ToId(z, x, y) in s.tiles ==> r == s
    ensures ToId(z, x, y) !in s.tiles ==>
      && r.total == s.total + 1
      && StatsAt(r.stats, z) == StatsAt(s.stats, z) + 1
      && (forall z' :: z' != z ==> StatsAt(r.stats, z') == StatsAt(s.stats, z'))
      && r.tiles[ToId(z, x, y)] == NewInternalTile(build, features, z, x, y, TileTolerance(s.options, z))
  {
    var id := ToId(z, x, y);
    if id in s.tiles then s
    else Inserted(s, id, NewInternalTile(build, features, z, x, y, TileTolerance(s.options, z)))
  }

  /** Replacing the sources of an existing entry keeps the index valid and
      every entry in place. */
  function WithSources(s: Index, id: nat, features: seq<Feature>): (r: Index)
    requires Valid(s) && id in s.tiles
    ensures Valid(r) && r.options == s.options && r.tiles.Keys == s.tiles.Keys
    ensures Persists(s.tiles, r.tiles)
    ensures r.tiles[id] == s.tiles[id].(sourceFeatures := features)
    ensures forall k :: k in s.tiles && k != id ==> r.tiles[k] == s.tiles[k]
  {
    var tiles := s.tiles[id := s.tiles[id].(sourceFeatures := features)];
    assert tiles.Keys == s.tiles.Keys;
    assert |tiles| == |tiles.Keys| == |s.tiles.Keys| == |s.tiles|;
    assert WellKeyed(tiles) by {
      forall k | k in tiles
        ensures tiles[k].z == s.tiles[k].z && tiles[k].x == s.tiles[k].x && tiles[k].y == s.tiles[k].y
      {
      }
    }
    s.(tiles := tiles)
  }

  /** What `split_tile` does once the entry exists. */
  datatype Step = StopEmpty | StopRetain | StopAtMaxZoom | Split

  /** The zoom the recursion cannot pass: `index_max_zoom` on the first
      pass, the target zoom when drilling down. */
  function StopZoom(o: Options, cz: nat): nat
  {
    if cz == 0 then o.indexMaxZoom else cz
  }

  /** The stop rules of `split_tile`, in the source's order. */
  function Decide(o: Options, numPoints: nat, features: seq<Feature>, z: nat, x: nat, y: nat,
                  cz: nat, cx: nat, cy: nat): (step: Step)
    requires z <= StopZoom(o, cz)
    ensures step.StopEmpty? <==> features == []
    ensures step.Split? ==> z < StopZoom(o, cz)
    ensures step.Split? && cz == 0 ==> numPoints > o.indexMaxPoints
    ensures step.Split? && cz > 0 ==> z != o.maxZoom && x == Shr(cx, cz - z) && y == Shr(cy, cz - z)
    ensures step.StopAtMaxZoom? ==> cz > 0 && z == o.maxZoom
    ensures step.StopRetain? && cz > 0 ==> z == cz || x != Shr(cx, cz - z) || y != Shr(cy, cz - z)
    ensures features != [] && cz == 0 ==>
      (step.Split? <==> z != o.indexMaxZoom && numPoints > o.indexMaxPoints)
    ensures features != [] && cz > 0 ==> (step.StopAtMaxZoom? <==> z == o.maxZoom)
    ensures features != [] && cz > 0 ==>
      (step.Split? <==> z != o.maxZoom && z != cz && x == Shr(cx, cz - z) && y == Shr(cy, cz - z))
  {
    if features == [] then StopEmpty
    else if cz == 0 then
      if z == o.indexMaxZoom || numPoints <= o.indexMaxPoints then StopRetain else Split
    else if z == o.maxZoom then StopAtMaxZoom
    else if z == cz then StopRetain
    else if x != Shr(cx, cz - z) || y != Shr(cy, cz - z) then StopRetain
    else Split
  }

  /** The clip padding `0.5 * buffer / extent`. */
  function Padding(o: Options): (p: real)
    requires o.tile.extent > 0
    ensures p >= 0.0
  {
    0.5 * (o.tile.buffer as real) / (o.tile.extent as real)
  }

  lemma DivideMonotone(a: real, b: real, d: real)
    requires a <= b && d > 0.0
    ensures a / d <= b / d
  {
    assert b / d - a / d == (b - a) / d;
  }

  /** The padded lower or upper half of column (or row) c at zoom z, in
      world units: [c - p, c + 0.5 + p] or [c + 0.5 - p, c + 1 + p], over 2^z. */
  function HalfBand(o: Options, z: nat, c: nat, upper: bool): (band: (real, real))
    requires o.tile.extent > 0
    ensures band.0 <= band.1
  {
    var z2 := Pow2(z) as real;
    var p := Padding(o);
    var lo := if upper then c as real + 0.5 - p else c as real - p;
    var hi := if upper then c as real + 1.0 + p else c as real + 0.5 + p;
    DivideMonotone(lo, hi, z2);
    (lo / z2, hi / z2)
  }

  /** The features of one child quadrant: an X clip to the column half,
      then a Y clip to the row half, both short-cut by the parent's box. */
  function Quadrant(o: Options, features: seq<Feature>, z: nat, x: nat, y: nat, bbox: BBox,
                    right: bool, bottom: bool): (r: seq<Feature>)
    requires o.tile.extent > 0
    ensures !o.tile.lineMetrics ==> |r| <= |features|
  {
    var columnBand := HalfBand(o, z, x, right);
    var rowBand := HalfBand(o, z, y, bottom);
    var column := Clip(X, features, columnBand.0, columnBand.1, bbox.min.x, bbox.max.x, o.tile.lineMetrics);
    Clip(Y, column, rowBand.0, rowBand.1, bbox.min.y, bbox.max.y, o.tile.lineMetrics)
  }

  /** The four children of tile (z, x, y) are all present. */
  predicate HasChildren(tiles: map<nat, InternalTile>, z: nat, x: nat, y: nat)
  {
    && ToId(z + 1, 2 * x, 2 * y) in tiles
    && ToId(z + 1, 2 * x, 2 * y + 1) in tiles
    && ToId(z + 1, 2 * x + 1, 2 * y) in tiles
    && ToId(z + 1, 2 * x + 1, 2 * y + 1) in tiles
  }

  /** Every tile below the root is one of its parent's four children. */
  lemma ChildOfParent(tiles: map<nat, InternalTile>, z: nat, x: nat, y: nat)
    requires 0 < z && HasChildren(tiles, z - 1, x / 2, y / 2)
    ensures ToId(z, x, y) in tiles
  {
    assert x == 2 * (x / 2) + x % 2 && y == 2 * (y / 2) + y % 2;
  }

  lemma PersistsTrans(a: map<nat, InternalTile>, b: map<nat, InternalTile>, c: map<nat, InternalTile>)
    requires Persists(a, b) && Persists(b, c)
    ensures Persists(a, c)
  {
  }

  /** Every entry `after` has and `before` lacks is tile (z, x, y) or one
      of its descendants. */
  predicate NewOnlyBelow(before: map<nat, InternalTile>, after: map<nat, InternalTile>, z: nat, x: nat, y: nat)
  {
    forall k :: k in after && k !in before ==>
      && after[k].z >= z
      && Shr(after[k].x, after[k].z - z) == x
      && Shr(after[k].y, after[k].z - z) == y
  }

  /** Entry `id` is in `after`: unchanged but for its sources when `before`
      had it, otherwise `made` but for its sources. */
  predicate EntryFrom(before: map<nat, InternalTile>, after: map<nat, InternalTile>, id: nat, made: InternalTile)
  {
    && id in after
    && (id in before ==> SameTile(before[id], after[id]))
    && (id !in before ==> SameTile(made, after[id]))
  }

  /** Tile (z, x, y) is in `after`: unchanged but for its sources when
      `before` had it, otherwise built from `features` by the tile builder. */
  predicate BuiltFrom(build: Builder, o: Options, before: map<nat, InternalTile>, after: map<nat, InternalTile>,
                      features: seq<Feature>, z: nat, x: nat, y: nat)
    requires o.tile.extent > 0
  {
    EntryFrom(before, after, ToId(z, x, y), NewInternalTile(build, features, z, x, y, TileTolerance(o, z)))
  }

  /** The child of (z, x, y) in the given quadrant is built from that
      quadrant's clip of `features`. */
  predicate ChildBuilt(build: Builder, o: Options, before: map<nat, InternalTile>, after: map<nat, InternalTile>,
                       features: seq<Feature>, bbox: BBox, z: nat, x: nat, y: nat, right: bool, bottom: bool)
    requires o.tile.extent > 0
  {
    BuiltFrom(build, o, before, after, Quadrant(o, features, z, x, y, bbox, right, bottom),
              z + 1, Half(x, right), Half(y, bottom))
  }

  /** All four children of (z, x, y) are built from their quadrants. */
  predicate ChildrenBuilt(build: Builder, o: Options, before: map<nat, InternalTile>, after: map<nat, InternalTile>,
                          features: seq<Feature>, bbox: BBox, z: nat, x: nat, y: nat)
    requires o.tile.extent > 0
  {
    && ChildBuilt(build, o, before, after, features, bbox, z, x, y, false, false)
    && ChildBuilt(build, o, before, after, features, bbox, z, x, y, false, true)
    && ChildBuilt(build, o, before, after, features, bbox, z, x, y, true, false)
    && ChildBuilt(build, o, before, after, features, bbox, z, x, y, true, true)
  }

  /** Halving a descendant's coordinate once more reaches the parent's. */
  lemma {:induction false} ShrHalf(a: nat, d: nat, c: nat, upper: bool)
    requires Shr(a, d) == Half(c, upper)
    ensures Shr(a, d + 1) == c
  {
    if d > 0 {
      ShrHalf(a / 2, d - 1, c, upper);
    }
  }

  /** A descendant of a child is a descendant of the parent. */
  lemma NewOnlyBelowLift(a: map<nat, InternalTile>, b: map<nat, InternalTile>, z: nat, x: nat, y: nat,
                         right: bool, bottom: bool)
    requires NewOnlyBelow(a, b, z + 1, Half(x, right), Half(y, bottom))
    ensures NewOnlyBelow(a, b, z, x, y)
  {
    forall k | k in b && k !in a
      ensures b[k].z >= z && Shr(b[k].x, b[k].z - z) == x && Shr(b[k].y, b[k].z - z) == y
    {
      ShrHalf(b[k].x, b[k].z - (z + 1), x, right);
      ShrHalf(b[k].y, b[k].z - (z + 1), y, bottom);
    }
  }

  lemma NewOnlyBelowTrans(a: map<nat, InternalTile>, b: map<nat, InternalTile>, c: map<nat, InternalTile>,
                          z: nat, x: nat, y: nat)
    requires NewOnlyBelow(a, b, z, x, y) && NewOnlyBelow(b, c, z, x, y) && Persists(b, c)
    ensures NewOnlyBelow(a, c, z, x, y)
  {
    forall k | k in c && k !in a
      ensures c[k].z >= z && Shr(c[k].x, c[k].z - z) == x && Shr(c[k].y, c[k].z - z) == y
    {
      if k in b {
        assert SameTile(b[k], c[k]);
      }
    }
  }

  /** A step that adds no key keeps what was added below (z, x, y). */
  lemma NewOnlyBelowKeys(a: map<nat, InternalTile>, b: map<nat, InternalTile>, c: map<nat, InternalTile>,
                         z: nat, x: nat, y: nat)
    requires NewOnlyBelow(a, b, z, x, y) && Persists(b, c) && c.Keys == b.Keys
    ensures NewOnlyBelow(a, c, z, x, y)
  {
    forall k | k in c && k !in a
      ensures c[k].z >= z && Shr(c[k].x, c[k].z - z) == x && Shr(c[k].y, c[k].z - z) == y
    {
      assert k in b && SameTile(b[k], c[k]);
    }
  }

  /** A sibling at the same zoom is not among the tiles a subtree added. */
  lemma SiblingNotAdded(a: map<nat, InternalTile>, b: map<nat, InternalTile>, z: nat, x: nat, y: nat,
                        x': nat, y': nat)
    requires WellKeyed(b) && NewOnlyBelow(a, b, z, x, y)
    requires z < ZoomLimit && x' < Pow2(z) && (x', y') != (x, y)
    ensures ToId(z, x', y') in b ==> ToId(z, x', y') in a
  {
    var k := ToId(z, x', y');
    if k in b && k !in a {
      EntryKey(b, k);
      ToIdInjective(z, x', y', b[k].z, b[k].x, b[k].y);
      assert false;
    }
  }

  /** A tile the split visits first is built from the features it receives. */
  lemma TryInsertBuilt(build: Builder, s: Index, features: seq<Feature>, z: nat, x: nat, y: nat,
                       after: map<nat, InternalTile>)
    requires Valid(s) && z < ZoomLimit && x < Pow2(z) && y < Pow2(z)
    requires Persists(TryInsert(build, s, features, z, x, y).tiles, after)
    ensures BuiltFrom(build, s.options, s.tiles, after, features, z, x, y)
  {
    var ins := TryInsert(build, s, features, z, x, y);
    var id := ToId(z, x, y);
    assert id in ins.tiles && id in after && SameTile(ins.tiles[id], after[id]);
    if id !in s.tiles {
      assert ins.tiles[id] == NewInternalTile(build, features, z, x, y, TileTolerance(s.options, z));
    }
  }

  /** The first visit adds only the tile itself. */
  lemma TryInsertBelow(build: Builder, s: Index, features: seq<Feature>, z: nat, x: nat, y: nat)
    requires Valid(s) && z < ZoomLimit && x < Pow2(z) && y < Pow2(z)
    ensures NewOnlyBelow(s.tiles, TryInsert(build, s, features, z, x, y).tiles, z, x, y)
  {
    var ins := TryInsert(build, s, features, z, x, y);
    forall k | k in ins.tiles && k !in s.tiles
      ensures ins.tiles[k].z >= z && Shr(ins.tiles[k].x, ins.tiles[k].z - z) == x
              && Shr(ins.tiles[k].y, ins.tiles[k].z - z) == y
    {
      assert k == ToId(z, x, y);
      assert ins.tiles[k] == NewInternalTile(build, features, z, x, y, TileTolerance(s.options, z));
    }
  }

  /** `split_tile(features, z, x, y, cz, cx, cy)`: make sure tile (z, x, y)
      exists, then stop, retain the sources, or split into four children and
      clear the sources. `cz = 0` is the first pass; otherwise the recursion
      drills towards the target tile (cz, cx, cy). */
  method SplitTile(build: Builder, s: Index, features: seq<Feature>, z: nat, x: nat, y: nat,
                   cz: nat, cx: nat, cy: nat) returns (r: Index)
    requires Valid(s)
    requires x < Pow2(z) && y < Pow2(z)
    requires cz < ZoomLimit && z <= StopZoom(s.options, cz)
    decreases StopZoom(s.options, cz) - z, 2
    ensures Valid(r) && r.options == s.options
    ensures s.tiles.Keys <= r.tiles.Keys && ToId(z, x, y) in r.tiles
    ensures Persists(s.tiles, r.tiles)
    ensures var ins := TryInsert(build, s, features, z, x, y);
            var id := ToId(z, x, y);
            var step := Decide(s.options, ins.tiles[id].tile.numPoints, features, z, x, y, cz, cx, cy);
            && ((step.StopEmpty? || step.StopAtMaxZoom?) ==> r == ins)
            && (step.StopRetain? ==> r == WithSources(ins, id, features))
            && (step.Split? ==>
                  && HasChildren(r.tiles, z, x, y) && r.tiles[id].sourceFeatures == [])
    ensures Persists(TryInsert(build, s, features, z, x, y).tiles, r.tiles)
    ensures NewOnlyBelow(s.tiles, r.tiles, z, x, y)
  {
    var o := s.options;
    var id := ToId(z, x, y);
    var ins := TryInsert(build, s, features, z, x, y);
    var entry := ins.tiles[id];
    var step := Decide(o, entry.tile.numPoints, features, z, x, y, cz, cx, cy);
    TryInsertBelow(build, s, features, z, x, y);
    if step.StopEmpty? || step.StopAtMaxZoom? {
      r := ins;
    } else if step.StopRetain? {
      r := WithSources(ins, id, features);
      NewOnlyBelowKeys(s.tiles, ins.tiles, r.tiles, z, x, y);
    } else {
      var r4 := SplitChildren(build, ins, features, entry.bbox, z, x, y, cz, cx, cy);
      PersistsTrans(s.tiles, ins.tiles, r4.tiles);
      r := WithSources(r4, id, []);
      PersistsTrans(s.tiles, r4.tiles, r.tiles);
      PersistsTrans(ins.tiles, r4.tiles, r.tiles);
      NewOnlyBelowTrans(s.tiles, ins.tiles, r4.tiles, z, x, y);
      NewOnlyBelowKeys(s.tiles, r4.tiles, r.tiles, z, x, y);
    }
  }

  /** The split of `split_tile`: the four quadrants of the tile, each tiled
      recursively, in the order top-left, bottom-left, top-right, bottom-right. */
  method SplitChildren(build: Builder, s: Index, features: seq<Feature>, bbox: BBox,
                       z: nat, x: nat, y: nat, cz: nat, cx: nat, cy: nat) returns (r: Index)
    requires Valid(s)
    requires x < Pow2(z) && y < Pow2(z)
    requires cz < ZoomLimit && z < StopZoom(s.options, cz)
    decreases StopZoom(s.options, cz) - z, 1
    ensures Valid(r) && r.options == s.options
    ensures s.tiles.Keys <= r.tiles.Keys && Persists(s.tiles, r.tiles)
    ensures HasChildren(r.tiles, z, x, y)
    ensures ChildrenBuilt(build, s.options, s.tiles, r.tiles, features, bbox, z, x, y)
    ensures NewOnlyBelow(s.tiles, r.tiles, z, x, y)
  {
    var r1 := SplitQuadrant(build, s, features, bbox, z, x, y, false, false, cz, cx, cy);
    var r2 := SplitQuadrant(build, r1, features, bbox, z, x, y, false, true, cz, cx, cy);
    var r3 := SplitQuadrant(build, r2, features, bbox, z, x, y, true, false, cz, cx, cy);
    r := SplitQuadrant(build, r3, features, bbox, z, x, y, true, true, cz, cx, cy);
    PersistsTrans(s.tiles, r1.tiles, r2.tiles);
    PersistsTrans(s.tiles, r2.tiles, r3.tiles);
    PersistsTrans(s.tiles, r3.tiles, r.tiles);
    var o := s.options;
    SplitsBuildChildren(build, o, s.tiles, r1.tiles, r2.tiles, r3.tiles, r.tiles,
                        Quadrant(o, features, z, x, y, bbox, false, false),
                        Quadrant(o, features, z, x, y, bbox, false, true),
                        Quadrant(o, features, z, x, y, bbox, true, false),
                        Quadrant(o, features, z, x, y, bbox, true, true), z, x, y);
    QuadrantsBelow(s.tiles, r1.tiles, r2.tiles, r3.tiles, r.tiles, z, x, y);
  }

  /** Four splits in a row, of the quadrants top-left, bottom-left,
      top-right and bottom-right of (z, x, y), which receive f1 to f4: each
      child ends up built from its own features. */
  lemma SplitsBuildChildren(build: Builder, o: Options, t0: map<nat, InternalTile>, t1: map<nat, InternalTile>,
                            t2: map<nat, InternalTile>, t3: map<nat, InternalTile>, t4: map<nat, InternalTile>,
                            f1: seq<Feature>, f2: seq<Feature>, f3: seq<Feature>, f4: seq<Feature>,
                            z: nat, x: nat, y: nat)
    requires o.tile.extent > 0 && z + 1 < ZoomLimit && x < Pow2(z)
    requires WellKeyed(t1) && WellKeyed(t2) && WellKeyed(t3)
    requires Persists(t0, t1) && Persists(t1, t2) && Persists(t2, t3) && Persists(t3, t4)
    requires BuiltFrom(build, o, t0, t1, f1, z + 1, Half(x, false), Half(y, false))
    requires BuiltFrom(build, o, t1, t2, f2, z + 1, Half(x, false), Half(y, true))
    requires BuiltFrom(build, o, t2, t3, f3, z + 1, Half(x, true), Half(y, false))
    requires BuiltFrom(build, o, t3, t4, f4, z + 1, Half(x, true), Half(y, true))
    requires NewOnlyBelow(t0, t1, z + 1, Half(x, false), Half(y, false))
    requires NewOnlyBelow(t1, t2, z + 1, Half(x, false), Half(y, true))
    requires NewOnlyBelow(t2, t3, z + 1, Half(x, true), Half(y, false))
    ensures BuiltFrom(build, o, t0, t4, f1, z + 1, Half(x, false), Half(y, false))
    ensures BuiltFrom(build, o, t0, t4, f2, z + 1, Half(x, false), Half(y, true))
    ensures BuiltFrom(build, o, t0, t4, f3, z + 1, Half(x, true), Half(y, false))
    ensures BuiltFrom(build, o, t0, t4, f4, z + 1, Half(x, true), Half(y, true))
  {
    var xl, xr, yt, yb := Half(x, false), Half(x, true), Half(y, false), Half(y, true);
    SiblingsNotAdded(t0, t1, t2, t3, z, x, y);
    assert Pow2(z + 1) == 2 * Pow2(z);
    SiblingNotAdded(t0, t1, z + 1, xl, yt, xr, yb);
    QuadrantsBuilt(t0, t1, t2, t3, t4, ToId(z + 1, xl, yt), ToId(z + 1, xl, yb), ToId(z + 1, xr, yt), ToId(z + 1, xr, yb),
                   NewInternalTile(build, f1, z + 1, xl, yt, TileTolerance(o, z + 1)),
                   NewInternalTile(build, f2, z + 1, xl, yb, TileTolerance(o, z + 1)),
                   NewInternalTile(build, f3, z + 1, xr, yt, TileTolerance(o, z + 1)),
                   NewInternalTile(build, f4, z + 1, xr, yb, TileTolerance(o, z + 1)));
  }

  /** No quadrant split adds the key of a quadrant split after it. */
  lemma SiblingsNotAdded(t0: map<nat, InternalTile>, t1: map<nat, InternalTile>,
                         t2: map<nat, InternalTile>, t3: map<nat, InternalTile>, z: nat, x: nat, y: nat)
    requires z + 1 < ZoomLimit && x < Pow2(z)
    requires WellKeyed(t1) && WellKeyed(t2) && WellKeyed(t3) && Persists(t1, t2) && Persists(t2, t3)
    requires NewOnlyBelow(t0, t1, z + 1, Half(x, false), Half(y, false))
    requires NewOnlyBelow(t1, t2, z + 1, Half(x, false), Half(y, true))
    requires NewOnlyBelow(t2, t3, z + 1, Half(x, true), Half(y, false))
    ensures ToId(z + 1, Half(x, false), Half(y, true)) in t1 ==> ToId(z + 1, Half(x, false), Half(y, true)) in t0
    ensures ToId(z + 1, Half(x, true), Half(y, false)) in t2 ==> ToId(z + 1, Half(x, true), Half(y, false)) in t0
    ensures ToId(z + 1, Half(x, true), Half(y, true)) in t3 ==> ToId(z + 1, Half(x, true), Half(y, true)) in t1
  {
    assert Pow2(z + 1) == 2 * Pow2(z);
    var xl, xr, yt, yb := Half(x, false), Half(x, true), Half(y, false), Half(y, true);
    SiblingNotAdded(t0, t1, z + 1, xl, yt, xl, yb);
    NotAddedByTwo(t0, t1, t2, z + 1, xl, yt, xl, yb, xr, yt);
    NotAddedByTwo(t1, t2, t3, z + 1, xl, yb, xr, yt, xr, yb);
  }

  /** Four splits in a row, making entries n1 to n4 under keys i1 to i4:
      when no split adds a later split's key, every entry is its own
      split's. */
  lemma QuadrantsBuilt(t0: map<nat, InternalTile>, t1: map<nat, InternalTile>,
                       t2: map<nat, InternalTile>, t3: map<nat, InternalTile>, t4: map<nat, InternalTile>,
                       i1: nat, i2: nat, i3: nat, i4: nat,
                       n1: InternalTile, n2: InternalTile, n3: InternalTile, n4: InternalTile)
    requires Persists(t0, t1) && Persists(t1, t2) && Persists(t2, t3) && Persists(t3, t4)
    requires EntryFrom(t0, t1, i1, n1) && EntryFrom(t1, t2, i2, n2)
    requires EntryFrom(t2, t3, i3, n3) && EntryFrom(t3, t4, i4, n4)
    requires i2 in t1 ==> i2 in t0
    requires i3 in t2 ==> i3 in t0
    requires i4 in t3 ==> i4 in t0
    ensures EntryFrom(t0, t4, i1, n1) && EntryFrom(t0, t4, i2, n2)
    ensures EntryFrom(t0, t4, i3, n3) && EntryFrom(t0, t4, i4, n4)
  {
  }

  /** A key is not added by two successive splits of other subtrees at its zoom. */
  lemma NotAddedByTwo(t0: map<nat, InternalTile>, t1: map<nat, InternalTile>, t2: map<nat, InternalTile>,
                      z: nat, x1: nat, y1: nat, x2: nat, y2: nat, x: nat, y: nat)
    requires z < ZoomLimit && x < Pow2(z)
    requires WellKeyed(t1) && WellKeyed(t2) && Persists(t1, t2)
    requires NewOnlyBelow(t0, t1, z, x1, y1) && NewOnlyBelow(t1, t2, z, x2, y2)
    requires (x, y) != (x1, y1) && (x, y) != (x2, y2)
    ensures ToId(z, x, y) in t2 ==> ToId(z, x, y) in t0
  {
    SiblingNotAdded(t1, t2, z, x2, y2, x, y);
    SiblingNotAdded(t0, t1, z, x1, y1, x, y);
  }

  /** Four quadrant splits in a row add only tiles below (z, x, y). */
  lemma QuadrantsBelow(t0: map<nat, InternalTile>, t1: map<nat, InternalTile>, t2: map<nat, InternalTile>,
                       t3: map<nat, InternalTile>, t4: map<nat, InternalTile>, z: nat, x: nat, y: nat)
    requires Persists(t1, t2) && Persists(t2, t3) && Persists(t3, t4)
    requires NewOnlyBelow(t0, t1, z + 1, Half(x, false), Half(y, false))
    requires NewOnlyBelow(t1, t2, z + 1, Half(x, false), Half(y, true))
    requires NewOnlyBelow(t2, t3, z + 1, Half(x, true), Half(y, false))
    requires NewOnlyBelow(t3, t4, z + 1, Half(x, true), Half(y, true))
    ensures NewOnlyBelow(t0, t4, z, x, y)
  {
    NewOnlyBelowLift(t0, t1, z, x, y, false, false);
    NewOnlyBelowLift(t1, t2, z, x, y, false, true);
    NewOnlyBelowLift(t2, t3, z, x, y, true, false);
    NewOnlyBelowLift(t3, t4, z, x, y, true, true);
    NewOnlyBelowTrans(t0, t1, t2, z, x, y);
    NewOnlyBelowTrans(t0, t2, t3, z, x, y);
    NewOnlyBelowTrans(t0, t3, t4, z, x, y);
  }

  /** Column or row 2c or 2c + 1 of the next zoom. */
  function Half(c: nat, upper: bool): nat
  {
    if upper then 2 * c + 1 else 2 * c
  }

  /** One child of the split: clip the features to the quadrant and tile it. */
  method SplitQuadrant(build: Builder, s: Index, features: seq<Feature>, bbox: BBox,
                       z: nat, x: nat, y: nat, right: bool, bottom: bool,
                       cz: nat, cx: nat, cy: nat) returns (r: Index)
    requires Valid(s)
    requires x < Pow2(z) && y < Pow2(z)
    requires cz < ZoomLimit && z < StopZoom(s.options, cz)
    decreases StopZoom(s.options, cz) - z, 0
    ensures Valid(r) && r.options == s.options
    ensures s.tiles.Keys <= r.tiles.Keys && Persists(s.tiles, r.tiles)
    ensures ToId(z + 1, Half(x, right), Half(y, bottom)) in r.tiles
    ensures ChildBuilt(build, s.options, s.tiles, r.tiles, features, bbox, z, x, y, right, bottom)
    ensures NewOnlyBelow(s.tiles, r.tiles, z + 1, Half(x, right), Half(y, bottom))
  {
    assert Pow2(z + 1) == 2 * Pow2(z);
    r := SplitChild(build, s, Quadrant(s.options, features, z, x, y, bbox, right, bottom),
                    z + 1, Half(x, right), Half(y, bottom), cz, cx, cy);
  }

  /** Split a child tile and record that it is built from the features it receives. */
  method SplitChild(build: Builder, s: Index, features: seq<Feature>, z: nat, x: nat, y: nat,
                    cz: nat, cx: nat, cy: nat) returns (r: Index)
    requires Valid(s)
    requires x < Pow2(z) && y < Pow2(z)
    requires cz < ZoomLimit && z <= StopZoom(s.options, cz)
    decreases StopZoom(s.options, cz) - z, 3
    ensures Valid(r) && r.options == s.options
    ensures s.tiles.Keys <= r.tiles.Keys && Persists(s.tiles, r.tiles)
    ensures BuiltFrom(build, s.options, s.tiles, r.tiles, features, z, x, y)
    ensures NewOnlyBelow(s.tiles, r.tiles, z, x, y)
  {
    r := SplitTile(build, s, features, z, x, y, cz, cx, cy);
    TryInsertBuilt(build, s, features, z, x, y, r.tiles);
  }

  /** `split_tile_zeros`: the first-pass tiling from (z, x, y). */
  method SplitTileZeros(build: Builder, s: Index, features: seq<Feature>, z: nat, x: nat, y: nat)
    returns (r: Index)
    requires Valid(s)
    requires x < Pow2(z) && y < Pow2(z) && z <= s.options.indexMaxZoom
    ensures Valid(r) && r.options == s.options
    ensures s.tiles.Keys <= r.tiles.Keys && ToId(z, x, y) in r.tiles
    ensures Persists(s.tiles, r.tiles)
    ensures features == [] ==> r == TryInsert(build, s, features, z, x, y)
    ensures Persists(TryInsert(build, s, features, z, x, y).tiles, r.tiles)
    ensures NewOnlyBelow(s.tiles, r.tiles, z, x, y)
  {
    r := SplitTile(build, s, features, z, x, y, 0, 0, 0);
  }

  /** `find_parent`: walk up from (z, x, y) and return the first ancestor present. */
  function FindParent(tiles: map<nat, InternalTile>, z: nat, x: nat, y: nat): (r: Option<InternalTile>)
    ensures z == 0 ==> r.None?
    ensures r.Some? ==> r.value in tiles.Values
    ensures 0 < z && ToId(z - 1, x / 2, y / 2) in tiles ==> r == Some(tiles[ToId(z - 1, x / 2, y / 2)])
  {
    if z == 0 then None
    else
      var key := ToId(z - 1, x / 2, y / 2);
      if key in tiles then Some(tiles[key]) else FindParent(tiles, z - 1, x / 2, y / 2)
  }

  /** A found parent is the entry of the nearest present ancestor. */
  lemma {:induction false} FindParentNearest(tiles: map<nat, InternalTile>, z: nat, x: nat, y: nat)
    returns (k: nat)
    requires FindParent(tiles, z, x, y).Some?
    ensures 1 <= k <= z && AncestorKey(z, x, y, k) in tiles
    ensures FindParent(tiles, z, x, y).value == tiles[AncestorKey(z, x, y, k)]
    ensures forall j :: 1 <= j < k ==> AncestorKey(z, x, y, j) !in tiles
  {
    AncestorKeyStep(z, x, y, 0);
    if ToId(z - 1, x / 2, y / 2) in tiles {
      k := 1;
    } else {
      var k' := FindParentNearest(tiles, z - 1, x / 2, y / 2);
      k := k' + 1;
      AncestorKeyStep(z, x, y, k');
      forall j | 1 <= j < k
        ensures AncestorKey(z, x, y, j) !in tiles
      {
        if j > 1 {
          AncestorKeyStep(z, x, y, j - 1);
        }
      }
    }
  }

  /** `find_parent` fails exactly when no strict ancestor is present. */
  lemma {:induction false} FindParentNone(tiles: map<nat, InternalTile>, z: nat, x: nat, y: nat)
    ensures FindParent(tiles, z, x, y).None? <==>
            forall k :: 1 <= k <= z ==> AncestorKey(z, x, y, k) !in tiles
  {
    if FindParent(tiles, z, x, y).Some? {
      var k := FindParentNearest(tiles, z, x, y);
    } else if z > 0 {
      FindParentNone(tiles, z - 1, x / 2, y / 2);
      forall k | 1 <= k <= z
        ensures AncestorKey(z, x, y, k) !in tiles
      {
        AncestorKeyStep(z, x, y, k - 1);
      }
    }
  }

  /** A map that only grows keeps every parent it could find. */
  lemma FindParentGrows(t1: map<nat, InternalTile>, t2: map<nat, InternalTile>, z: nat, x: nat, y: nat)
    requires t1.Keys <= t2.Keys && FindParent(t1, z, x, y).Some?
    ensures FindParent(t2, z, x, y).Some?
  {
    var k := FindParentNearest(t1, z, x, y);
    FindParentNone(t2, z, x, y);
  }

  /** With the root tile present, every tile of the grid below it has a parent. */
  lemma RootIsParent(tiles: map<nat, InternalTile>, z: nat, x: nat, y: nat)
    requires ToId(0, 0, 0) in tiles && 0 < z && x < Pow2(z) && y < Pow2(z)
    ensures FindParent(tiles, z, x, y).Some?
  {
    ShrInsideGrid(x, z);
    ShrInsideGrid(y, z);
    assert AncestorKey(z, x, y, z) == ToId(0, 0, 0);
    FindParentNone(tiles, z, x, y);
  }

  /** Halving keeps a coordinate inside the grid of the coarser zoom. */
  lemma {:induction false} ShrStaysInGrid(x: nat, z: nat, k: nat)
    requires k <= z && x < Pow2(z)
    ensures Shr(x, k) < Pow2(z - k)
  {
    if k > 0 {
      ShrStaysInGrid(x / 2, z - 1, k - 1);
    }
  }

  /** Halving keeps a coordinate outside the grid of the coarser zoom. */
  lemma {:induction false} ShrStaysOutside(y: nat, z: nat, k: nat)
    requires k <= z && y >= Pow2(z)
    ensures Shr(y, k) >= Pow2(z - k)
  {
    if k > 0 {
      ShrStaysOutside(y / 2, z - 1, k - 1);
    }
  }

  /** A row below the grid has neither an entry nor a parent: the source
      wraps x but not y. */
  lemma RowOutsideGrid(tiles: map<nat, InternalTile>, z: nat, x: nat, y: nat)
    requires WellKeyed(tiles) && z < ZoomLimit && x < Pow2(z) && y >= Pow2(z)
    ensures ToId(z, x, y) !in tiles
    ensures FindParent(tiles, z, x, y).None?
  {
    if ToId(z, x, y) in tiles {
      var e := tiles[ToId(z, x, y)];
      ToIdInjective(z, x, y, e.z, e.x, e.y);
    }
    forall k | 1 <= k <= z
      ensures AncestorKey(z, x, y, k) !in tiles
    {
      var key := AncestorKey(z, x, y, k);
      if key in tiles {
        var e := tiles[key];
        ShrStaysInGrid(x, z, k);
        ShrStaysOutside(y, z, k);
        ToIdInjective(z - k, Shr(x, k), Shr(y, k), e.z, e.x, e.y);
      }
    }
    FindParentNone(tiles, z, x, y);
  }

  /** The requested tile is missing and its nearest ancestor retains no sources. */
  predicate NothingToDrill(tiles: map<nat, InternalTile>, z: nat, x: nat, y: nat)
  {
    && ToId(z, x, y) !in tiles
    && FindParent(tiles, z, x, y).Some?
    && FindParent(tiles, z, x, y).value.sourceFeatures == []
  }

  /** The requested tile is missing and its direct parent retains sources. */
  predicate ParentHoldsSources(tiles: map<nat, InternalTile>, z: nat, x: nat, y: nat)
  {
    && 0 < z
    && ToId(z, x, y) !in tiles
    && ToId(z - 1, x / 2, y / 2) in tiles
    && tiles[ToId(z - 1, x / 2, y / 2)].sourceFeatures != []
  }

  /** `get_tile(z, x_, y)`: wrap x, return a cached tile, or drill down from
      the nearest ancestor; panics on a zoom above `max_zoom` and when no
      ancestor exists. */
  method GetTile(build: Builder, s: Index, z: nat, x_: nat, y: nat) returns (r: Index, res: Result<Tile>)
    requires Valid(s)
    ensures Valid(r) && r.options == s.options
    ensures s.tiles.Keys <= r.tiles.Keys && Persists(s.tiles, r.tiles)
    ensures res.Panic? ==> r == s
    ensures z > s.options.maxZoom ==> res == Panic(ZoomTooHigh)
    ensures z <= s.options.maxZoom ==> var id := ToId(z, WrapX(x_, z), y);
      id in s.tiles ==> r == s && res == Ok(s.tiles[id].tile)
    ensures z <= s.options.maxZoom ==> var x := WrapX(x_, z);
      res == Panic(ParentNotFound) <==> ToId(z, x, y) !in s.tiles && FindParent(s.tiles, z, x, y).None?
    ensures z <= s.options.maxZoom ==> var id := ToId(z, WrapX(x_, z), y);
      res.Ok? ==> res.value == if id in r.tiles then r.tiles[id].tile else EmptyTile
    ensures z <= s.options.maxZoom && NothingToDrill(s.tiles, z, WrapX(x_, z), y) ==>
      r == s && res == Ok(EmptyTile)
    ensures z <= s.options.maxZoom && ParentHoldsSources(s.tiles, z, WrapX(x_, z), y) ==>
      ToId(z, WrapX(x_, z), y) in r.tiles && res.Ok?
    ensures z <= s.options.maxZoom && ToId(0, 0, 0) in s.tiles && y < Pow2(z) ==> res.Ok?
    ensures z <= s.options.maxZoom && y >= Pow2(z) ==> res == Panic(ParentNotFound)
  {
    if z > s.options.maxZoom {
      return s, Panic(ZoomTooHigh);
    }
    var x := WrapX(x_, z);
    var id := ToId(z, x, y);
    if y >= Pow2(z) {
      RowOutsideGrid(s.tiles, z, x, y);
    }
    if ToId(0, 0, 0) in s.tiles && y < Pow2(z) && 0 < z {
      RootIsParent(s.tiles, z, x, y);
    }
    if id in s.tiles {
      return s, Ok(s.tiles[id].tile);
    }
    if FindParent(s.tiles, z, x, y).None? {
      return s, Panic(ParentNotFound);
    }
    r, res := DrillDown(build, s, z, x, y);
  }

  /** The splitting half of `get_tile`'s drill-down: tile the nearest
      ancestor's retained sources towards the missing tile (z, x, y). */
  method DrillSplit(build: Builder, s: Index, z: nat, x: nat, y: nat) returns (r: Index)
    requires Valid(s) && z <= s.options.maxZoom && x < Pow2(z)
    requires ToId(z, x, y) !in s.tiles && FindParent(s.tiles, z, x, y).Some?
    ensures Valid(r) && r.options == s.options
    ensures s.tiles.Keys <= r.tiles.Keys && Persists(s.tiles, r.tiles)
    ensures NothingToDrill(s.tiles, z, x, y) ==> r == s
    ensures ParentHoldsSources(s.tiles, z, x, y) ==> ToId(z, x, y) in r.tiles
  {
    var e := FindParent(s.tiles, z, x, y).value;
    var k := FindParentNearest(s.tiles, z, x, y);
    assert e.z == z - k && ToId(e.z, e.x, e.y) in s.tiles && s.tiles[ToId(e.z, e.x, e.y)] == e by {
      var key := AncestorKey(z, x, y, k);
      EntryKey(s.tiles, key);
      assert key % 32 == z - k && key % 32 == e.z;
    }
    var direct := ParentHoldsSources(s.tiles, z, x, y);
    if direct {
      assert e == s.tiles[ToId(z - 1, x / 2, y / 2)];
      DirectParentOnPath(s, e, z, x, y);
    }
    r := SplitExisting(build, s, e, z, x, y);
    if direct {
      ChildOfParent(r.tiles, z, x, y);
    }
  }

  /** `split_tile` started from an entry already in the index with that
      entry's retained sources, as the drill-down does: no sources, no
      change; a tile on the path to the target below `max_zoom` splits. */
  method SplitExisting(build: Builder, s: Index, e: InternalTile, cz: nat, cx: nat, cy: nat) returns (r: Index)
    requires Valid(s) && ToId(e.z, e.x, e.y) in s.tiles && s.tiles[ToId(e.z, e.x, e.y)] == e
    requires 0 < cz < ZoomLimit && e.z <= cz
    ensures Valid(r) && r.options == s.options
    ensures s.tiles.Keys <= r.tiles.Keys && Persists(s.tiles, r.tiles)
    ensures e.sourceFeatures == [] ==> r == s
    ensures && e.sourceFeatures != [] && e.z != s.options.maxZoom && e.z != cz
            && e.x == Shr(cx, cz - e.z) && e.y == Shr(cy, cz - e.z)
            ==> HasChildren(r.tiles, e.z, e.x, e.y)
  {
    EntryKey(s.tiles, ToId(e.z, e.x, e.y));
    var split := && e.sourceFeatures != [] && e.z != s.options.maxZoom && e.z != cz
                 && e.x == Shr(cx, cz - e.z) && e.y == Shr(cy, cz - e.z);
    var step := Decide(s.options, e.tile.numPoints, e.sourceFeatures, e.z, e.x, e.y, cz, cx, cy);
    assert split ==> step.Split?;
    assert TryInsert(build, s, e.sourceFeatures, e.z, e.x, e.y) == s;
    r := SplitTile(build, s, e.sourceFeatures, e.z, e.x, e.y, cz, cx, cy);
  }

  /** The drill-down of `get_tile`: split the nearest ancestor's retained
      sources towards the missing tile (z, x, y), then look the tile up again.
      The map only grows, so the second parent search cannot fail and the
      second "Parent tile not found" panic is unreachable. */
  method DrillDown(build: Builder, s: Index, z: nat, x: nat, y: nat) returns (r: Index, res: Result<Tile>)
    requires Valid(s) && z <= s.options.maxZoom && x < Pow2(z)
    requires ToId(z, x, y) !in s.tiles && FindParent(s.tiles, z, x, y).Some?
    ensures Valid(r) && r.options == s.options
    ensures s.tiles.Keys <= r.tiles.Keys && Persists(s.tiles, r.tiles)
    ensures res.Ok? && res.value == if ToId(z, x, y) in r.tiles then r.tiles[ToId(z, x, y)].tile else EmptyTile
    ensures NothingToDrill(s.tiles, z, x, y) ==> r == s && res == Ok(EmptyTile)
    ensures ParentHoldsSources(s.tiles, z, x, y) ==> ToId(z, x, y) in r.tiles
  {
    var id := ToId(z, x, y);
    r := DrillSplit(build, s, z, x, y);
    if id in r.tiles {
      res := Ok(r.tiles[id].tile);
    } else if FindParent(r.tiles, z, x, y).None? {
      FindParentGrows(s.tiles, r.tiles, z, x, y);
      assert false;
      res := Panic(ParentNotFound);
    } else {
      res := Ok(EmptyTile);
    }
  }

  /** An entry sits at the key of its own coordinates, inside the grid. */
  lemma EntryKey(tiles: map<nat, InternalTile>, k: nat)
    requires WellKeyed(tiles) && k in tiles
    ensures tiles[k].z < ZoomLimit && tiles[k].x < Pow2(tiles[k].z) && tiles[k].y < Pow2(tiles[k].z)
    ensures k == ToId(tiles[k].z, tiles[k].x, tiles[k].y)
  {
  }

  /** The direct parent of a grid tile is stored at its own coordinates,
      so it passes the drill-down ancestor test. */
  lemma DirectParentOnPath(s: Index, e: InternalTile, z: nat, x: nat, y: nat)
    requires Valid(s) && 0 < z < ZoomLimit && x < Pow2(z)
    requires ToId(z - 1, x / 2, y / 2) in s.tiles && e == s.tiles[ToId(z - 1, x / 2, y / 2)]
    ensures e.z == z - 1 && e.x == Shr(x, 1) && e.y == Shr(y, 1)
  {
    assert e.z == z - 1 && e.x == x / 2 && e.y == y / 2 by {
      assert x / 2 < Pow2(z - 1) by {
        assert Pow2(z) == 2 * Pow2(z - 1);
      }
      EntryKey(s.tiles, ToId(z - 1, x / 2, y / 2));
      ToIdInjective(z - 1, x / 2, y / 2, e.z, e.x, e.y);
    }
    assert Shr(x, 1) == Shr(x / 2, 0);
    assert Shr(y, 1) == Shr(y / 2, 0);
  }

  /** `GeoJSONVT::new` on converted features: wrap them around the
      antimeridian, then tile them from the root. */
  method NewIndex(build: Builder, options: Options, features: seq<Feature>) returns (idx: Index)
    requires ValidOptions(options)
    ensures Valid(idx) && idx.options == options
    ensures ToId(0, 0, 0) in idx.tiles
  {
    var buffer := options.tile.buffer as real / options.tile.extent as real;
    var wrapped := Wrap.Wrap(features, buffer, options.tile.lineMetrics);
    var empty := Index(options, map[], 0, map[]);
    StatsSumEmpty(ZoomLimit);
    idx := SplitTileZeros(build, empty, wrapped, 0, 0, 0);
  }
}

=== FILE: types.dfy ===
/** The geometry and feature vocabulary of the tiler (src/types.rs), over
    real coordinates: points, line strings, rings, the tagged geometry
    union, features with their bounding box, the axis accessor, and the
    progress/intersection helpers the clipper interpolates with. */
module Types {
  import opened Outcomes
  import opened Seqs

  /** A projected point; `z` carries the simplification importance (1.0 for
      points the clipper synthesises on a band boundary). */
  datatype Point = Point(x: real, y: real, z: real)

  /** A plain 2-D point, used for bounding boxes. */
  datatype Point2D = Point2D(x: real, y: real)

  /** The axis-aligned box of a feature. */
  datatype BBox = BBox(min: Point2D, max: Point2D)

  /** The box a feature starts with before its geometry is folded in: both
      corners at the origin. */
  const DefaultBBox := BBox(Point2D(0.0, 0.0), Point2D(0.0, 0.0))

  /** A polyline with its length and, under line metrics, the distances along
      the original line where this piece starts and ends. */
  datatype LineString = LineString(elements: seq<Point>, dist: real, segStart: real, segEnd: real)

  /** A polygon ring with its area. */
  datatype LinearRing = LinearRing(elements: seq<Point>, area: real)

  /** The geometry union; a collection holds geometries recursively. */
  datatype Geometry =
    | Empty
    | PointGeometry(point: Point)
    | MultiPoint(points: seq<Point>)
    | LineStringGeometry(line: LineString)
    | MultiLineString(lines: seq<LineString>)
    | Polygon(rings: seq<LinearRing>)
    | MultiPolygon(polygons: seq<seq<LinearRing>>)
    | GeometryCollection(members: seq<Geometry>)

  /** A property value. The tiler copies property maps without looking into them. */
  datatype JsonValue = JsonValue(text: string)

  /** A feature identifier: a string or a number. */
  datatype FeatureId = StringId(name: string) | NumberId(number: int)

  /** A feature: geometry, properties, optional id, bounding box and the
      number of raw vertices counted when it was built. */
  datatype Feature = Feature(
    geometry: Geometry,
    properties: map<string, JsonValue>,
    id: Option<FeatureId>,
    bbox: BBox,
    numPoints: nat)

  /** A point with importance 0 (`VtPoint::new_without_z`). */
  function NewPointWithoutZ(x: real, y: real): (p: Point)
    ensures p.x == x && p.y == y && p.z == 0.0
  {
    Point(x, y, 0.0)
  }

  /** The coordinate axis a clipper works along: X is index 0, Y is index 1. */
  datatype Axis = X | Y {
    function Index(): nat {
      match this
      case X => 0
      case Y => 1
    }
  }

  /** `GetCoordinate<I>` on a point: `x` for 0, `y` for 1, a panic otherwise. */
  function GetCoordinate(p: Point, i: nat): (r: Result<real>)
    ensures i == 0 ==> r == Ok(p.x)
    ensures i == 1 ==> r == Ok(p.y)
    ensures i > 1 ==> r == Panic(AxisOutOfRange)
  {
    if i == 0 then Ok(p.x)
    else if i == 1 then Ok(p.y)
    else Panic(AxisOutOfRange)
  }

  /** `GetCoordinate<I>` on a 2-D point, with the same panic rule. */
  function GetCoordinate2D(p: Point2D, i: nat): (r: Result<real>)
    ensures i == 0 ==> r == Ok(p.x)
    ensures i == 1 ==> r == Ok(p.y)
    ensures i > 1 ==> r == Panic(AxisOutOfRange)
  {
    if i == 0 then Ok(p.x)
    else if i == 1 then Ok(p.y)
    else Panic(AxisOutOfRange)
  }

  /** The coordinate of `p` along `axis`; never panics, since an axis is 0 or 1. */
  function Coord(axis: Axis, p: Point): real
  {
    GetCoordinate(p, axis.Index()).value
  }

  /** The coordinate of a 2-D point along `axis`. */
  function Coord2D(axis: Axis, p: Point2D): real
  {
    GetCoordinate2D(p, axis.Index()).value
  }

  /** The coordinate of `p` across `axis` (the one interpolation moves). */
  function Other(axis: Axis, p: Point): real
  {
    match axis
    case X => p.y
    case Y => p.x
  }

  /** `v` lies in the closed interval spanned by `a` and `b`, in either order. */
  predicate Between(v: real, a: real, b: real)
  {
    (a <= v <= b) || (b <= v <= a)
  }

  /** Interpolation parameter of `x` along the segment from `a` to `b`. Over
      f64 the source divides by zero when `a.x == b.x`; the clipper never
      asks for that case, so here it is excluded. */
  function CalcProgressX(a: Point, b: Point, x: real): (t: real)
    requires a.x != b.x
    ensures a.x + t * (b.x - a.x) == x
    ensures x == a.x ==> t == 0.0
    ensures x == b.x ==> t == 1.0
    ensures Between(x, a.x, b.x) ==> 0.0 <= t <= 1.0
  {
    ProgressInUnit(a.x, b.x, x);
    (x - a.x) / (b.x - a.x)
  }

  /** Interpolation parameter of `y` along the segment from `a` to `b`. */
  function CalcProgressY(a: Point, b: Point, y: real): (t: real)
    requires a.y != b.y
    ensures a.y + t * (b.y - a.y) == y
    ensures y == a.y ==> t == 0.0
    ensures y == b.y ==> t == 1.0
    ensures Between(y, a.y, b.y) ==> 0.0 <= t <= 1.0
  {
    ProgressInUnit(a.y, b.y, y);
    (y - a.y) / (b.y - a.y)
  }

  /** The quotient of a value between two ends lies in the unit interval. */
  lemma ProgressInUnit(a: real, b: real, v: real)
    requires a != b
    ensures a + (v - a) / (b - a) * (b - a) == v
    ensures v == a ==> (v - a) / (b - a) == 0.0
    ensures v == b ==> (v - a) / (b - a) == 1.0
    ensures Between(v, a, b) ==> 0.0 <= (v - a) / (b - a) <= 1.0
  {
    if Between(v, a, b) {
      if a < b {
        assert 0.0 <= v - a <= b - a;
      } else {
        assert b - a <= v - a <= 0.0;
      }
    }
  }

  /** The point at parameter `t` along `a`..`b`, with `x` pinned to the
      boundary value exactly and importance 1.0. */
  function IntersectX(a: Point, b: Point, x: real, t: real): (p: Point)
    ensures p.x == x && p.z == 1.0
    ensures t == 0.0 ==> p.y == a.y
    ensures t == 1.0 ==> p.y == b.y
    ensures 0.0 <= t <= 1.0 ==> Between(p.y, a.y, b.y)
  {
    InterpolateBetween(a.y, b.y, t);
    Point(x, (b.y - a.y) * t + a.y, 1.0)
  }

  /** The point at parameter `t` along `a`..`b`, with `y` pinned exactly. */
  function IntersectY(a: Point, b: Point, y: real, t: real): (p: Point)
    ensures p.y == y && p.z == 1.0
    ensures t == 0.0 ==> p.x == a.x
    ensures t == 1.0 ==> p.x == b.x
    ensures 0.0 <= t <= 1.0 ==> Between(p.x, a.x, b.x)
  {
    InterpolateBetween(a.x, b.x, t);
    Point((b.x - a.x) * t + a.x, y, 1.0)
  }

  /** Linear interpolation with a parameter in the unit interval stays between the ends. */
  lemma InterpolateBetween(a: real, b: real, t: real)
    ensures 0.0 <= t <= 1.0 ==> Between((b - a) * t + a, a, b)
  {
    if 0.0 <= t <= 1.0 {
      var d := b - a;
      assert d * t + d * (1.0 - t) == d;
      if d >= 0.0 {
        assert 0.0 <= d * t && 0.0 <= d * (1.0 - t);
      } else {
        assert d * t <= 0.0 && d * (1.0 - t) <= 0.0;
      }
    }
  }

  /** `calc_progress::<I>`: the X variant for axis 0, the Y variant for axis 1. */
  function CalcProgress(axis: Axis, a: Point, b: Point, v: real): real
    requires Coord(axis, a) != Coord(axis, b)
  {
    match axis
    case X => CalcProgressX(a, b, v)
    case Y => CalcProgressY(a, b, v)
  }

  /** `intersect::<I>`: the X variant for axis 0, the Y variant for axis 1. */
  function Intersect(axis: Axis, a: Point, b: Point, v: real, t: real): Point
  {
    match axis
    case X => IntersectX(a, b, v, t)
    case Y => IntersectY(a, b, v, t)
  }

  /** Intersecting at an endpoint's own coordinate reproduces that endpoint,
      apart from its importance, which becomes 1.0. */
  lemma IntersectAtEndpoints(axis: Axis, a: Point, b: Point)
    requires Coord(axis, a) != Coord(axis, b)
    ensures Intersect(axis, a, b, Coord(axis, a), CalcProgress(axis, a, b, Coord(axis, a))) == a.(z := 1.0)
    ensures Intersect(axis, a, b, Coord(axis, b), CalcProgress(axis, a, b, Coord(axis, b))) == b.(z := 1.0)
  {
  }

  /** `VtFeature::new`: a feature whose box and vertex count are folded in by
      `process_geometry`, which only handles a single point. */
  function NewFeature(geom: Geometry, props: map<string, JsonValue>, id: Option<FeatureId>): (f: Feature)
    ensures f.geometry == geom && f.properties == props && f.id == id
    ensures geom.PointGeometry? ==>
      && f.numPoints == 1
      && f.bbox.min.x <= geom.point.x <= f.bbox.max.x
      && f.bbox.min.y <= geom.point.y <= f.bbox.max.y
      && f.bbox.min.x <= 0.0 <= f.bbox.max.x
      && f.bbox.min.y <= 0.0 <= f.bbox.max.y
      && (f.bbox.min.x == geom.point.x || f.bbox.min.x == 0.0)
      && (f.bbox.max.x == geom.point.x || f.bbox.max.x == 0.0)
      && (f.bbox.min.y == geom.point.y || f.bbox.min.y == 0.0)
      && (f.bbox.max.y == geom.point.y || f.bbox.max.y == 0.0)
    ensures !geom.PointGeometry? ==> f.numPoints == 0 && f.bbox == DefaultBBox
  {
    ProcessGeometry(Feature(geom, props, id, DefaultBBox, 0))
  }

  /** Grows the box by the feature's point and counts it, when the geometry is
      a point; every other geometry leaves the feature as it is. */
  function ProcessGeometry(f: Feature): (r: Feature)
    ensures r.geometry == f.geometry && r.properties == f.properties && r.id == f.id
    ensures !f.geometry.PointGeometry? ==> r == f
    ensures f.geometry.PointGeometry? ==>
      var p := f.geometry.point;
      && r.numPoints == f.numPoints + 1
      && r.bbox.min.x <= p.x <= r.bbox.max.x && r.bbox.min.y <= p.y <= r.bbox.max.y
      && r.bbox.min.x <= f.bbox.min.x && r.bbox.min.y <= f.bbox.min.y
      && r.bbox.max.x >= f.bbox.max.x && r.bbox.max.y >= f.bbox.max.y
      && (r.bbox.min.x == p.x || r.bbox.min.x == f.bbox.min.x)
      && (r.bbox.min.y == p.y || r.bbox.min.y == f.bbox.min.y)
      && (r.bbox.max.x == p.x || r.bbox.max.x == f.bbox.max.x)
      && (r.bbox.max.y == p.y || r.bbox.max.y == f.bbox.max.y)
  {
    match f.geometry
    case PointGeometry(p) =>
      f.(bbox := BBox(Point2D(Min(p.x, f.bbox.min.x), Min(p.y, f.bbox.min.y)),
                      Point2D(Max(p.x, f.bbox.max.x), Max(p.y, f.bbox.max.y))),
         numPoints := f.numPoints + 1)
    case _ => f
  }

  function Min(a: real, b: real): real { if a <= b then a else b }

  function Max(a: real, b: real): real { if a >= b then a else b }

  /** `g` and `h` are geometries of the same kind. */
  predicate SameKind(g: Geometry, h: Geometry)
  {
    match g
    case Empty => h.Empty?
    case PointGeometry(_) => h.PointGeometry?
    case MultiPoint(_) => h.MultiPoint?
    case LineStringGeometry(_) => h.LineStringGeometry?
    case MultiLineString(_) => h.MultiLineString?
    case Polygon(_) => h.Polygon?
    case MultiPolygon(_) => h.MultiPolygon?
    case GeometryCollection(_) => h.GeometryCollection?
  }

  /** `b` is line `a` with other points: same distances. */
  predicate SameLine(a: LineString, b: LineString)
  {
    b == a.(elements := b.elements)
  }

  /** `b` are rings `a` with other points: as many rings, same areas. */
  predicate SameRings(a: seq<LinearRing>, b: seq<LinearRing>)
  {
    |b| == |a| && forall i :: 0 <= i < |a| ==> b[i] == a[i].(elements := b[i].elements)
  }

  /** `h` has the shape of `g`: the same kind and number of parts at every
      level, with the same line distances and ring areas; only the points
      may differ. */
  predicate SameShape(g: Geometry, h: Geometry)
  {
    match g
    case Empty => h.Empty?
    case PointGeometry(_) => h.PointGeometry?
    case MultiPoint(ps) => h.MultiPoint? && |h.points| == |ps|
    case LineStringGeometry(l) => h.LineStringGeometry? && SameLine(l, h.line)
    case MultiLineString(ls) =>
      && h.MultiLineString? && |h.lines| == |ls|
      && forall i :: 0 <= i < |ls| ==> SameLine(ls[i], h.lines[i])
    case Polygon(rs) => h.Polygon? && SameRings(rs, h.rings)
    case MultiPolygon(ps) =>
      && h.MultiPolygon? && |h.polygons| == |ps|
      && forall i :: 0 <= i < |ps| ==> SameRings(ps[i], h.polygons[i])
    case GeometryCollection(gs) =>
      && h.GeometryCollection? && |h.members| == |gs|
      && forall i :: 0 <= i < |gs| ==> SameShape(gs[i], h.members[i])
  }

  /** Applies `f` to every point of a geometry, keeping its shape: the kind,
      the number of parts, and each line's distances and each ring's area. */
  function ForEachPoint(g: Geometry, f: Point -> Point): (r: Geometry)
    ensures SameKind(g, r)
    ensures r.PointGeometry? ==> r.point == f(g.point)
    ensures r.MultiPoint? ==> |r.points| == |g.points|
    ensures r.LineStringGeometry? ==> r.line == g.line.(elements := r.line.elements)
    ensures r.MultiLineString? ==>
      && |r.lines| == |g.lines|
      && forall i :: 0 <= i < |r.lines| ==> r.lines[i] == g.lines[i].(elements := r.lines[i].elements)
    ensures r.Polygon? ==>
      && |r.rings| == |g.rings|
      && forall i :: 0 <= i < |r.rings| ==> r.rings[i] == g.rings[i].(elements := r.rings[i].elements)
    ensures r.MultiPolygon? ==> |r.polygons| == |g.polygons|
    ensures r.GeometryCollection? ==> |r.members| == |g.members|
    ensures SameShape(g, r)
  {
    match g
    case Empty => Empty
    case PointGeometry(p) => PointGeometry(f(p))
    case MultiPoint(ps) => MultiPoint(MapSeq(ps, f))
    case LineStringGeometry(l) => LineStringGeometry(MapLine(l, f))
    case MultiLineString(ls) => MultiLineString(MapSeq(ls, l => MapLine(l, f)))
    case Polygon(rs) => Polygon(MapRings(rs, f))
    case MultiPolygon(ps) => MultiPolygon(MapSeq(ps, rs => MapRings(rs, f)))
    case GeometryCollection(gs) =>
      GeometryCollection(seq(|gs|, i requires 0 <= i < |gs| => ForEachPoint(gs[i], f)))
  }

  function MapLine(l: LineString, f: Point -> Point): LineString
  {
    l.(elements := MapSeq(l.elements, f))
  }

  function MapRing(r: LinearRing, f: Point -> Point): LinearRing
  {
    r.(elements := MapSeq(r.elements, f))
  }

  function MapRings(rs: seq<LinearRing>, f: Point -> Point): seq<LinearRing>
  {
    MapSeq(rs, r => MapRing(r, f))
  }

  /** Every point of a geometry, in storage order. */
  function Points(g: Geometry): seq<Point>
  {
    match g
    case Empty => []
    case PointGeometry(p) => [p]
    case MultiPoint(ps) => ps
    case LineStringGeometry(l) => l.elements
    case MultiLineString(ls) => Flatten(MapSeq(ls, (l: LineString) => l.elements))
    case Polygon(rs) => RingPoints(rs)
    case MultiPolygon(ps) => Flatten(MapSeq(ps, RingPoints))
    case GeometryCollection(gs) =>
      Flatten(seq(|gs|, i requires 0 <= i < |gs| => Points(gs[i])))
  }

  function RingPoints(rs: seq<LinearRing>): seq<Point>
  {
    Flatten(MapSeq(rs, (r: LinearRing) => r.elements))
  }

  /** The points of a mapped geometry are the mapped points, in the same order. */
  lemma {:induction false} ForEachPointPoints(g: Geometry, f: Point -> Point)
    ensures Points(ForEachPoint(g, f)) == MapSeq(Points(g), f)
  {
    match g
    case Empty =>
    case PointGeometry(p) =>
    case MultiPoint(ps) =>
    case LineStringGeometry(l) =>
    case MultiLineString(ls) =>
      var ls' := MapSeq(ls, l => MapLine(l, f));
      FlattenMapSeq(MapSeq(ls, (l: LineString) => l.elements), MapSeq(ls', (l: LineString) => l.elements), f);
    case Polygon(rs) =>
      RingPointsMap(rs, f);
    case MultiPolygon(ps) =>
      var ps' := MapSeq(ps, rs => MapRings(rs, f));
      forall i | 0 <= i < |ps|
        ensures RingPoints(ps'[i]) == MapSeq(RingPoints(ps[i]), f)
      {
        RingPointsMap(ps[i], f);
      }
      FlattenMapSeq(MapSeq(ps, RingPoints), MapSeq(ps', RingPoints), f);
    case GeometryCollection(gs) =>
      var gs' := seq(|gs|, i requires 0 <= i < |gs| => ForEachPoint(gs[i], f));
      forall i | 0 <= i < |gs|
        ensures Points(gs'[i]) == MapSeq(Points(gs[i]), f)
      {
        ForEachPointPoints(gs[i], f);
      }
      FlattenMapSeq(seq(|gs|, i requires 0 <= i < |gs| => Points(gs[i])),
                    seq(|gs'|, i requires 0 <= i < |gs'| => Points(gs'[i])), f);
  }

  lemma RingPointsMap(rs: seq<LinearRing>, f: Point -> Point)
    ensures RingPoints(MapRings(rs, f)) == MapSeq(RingPoints(rs), f)
  {
    FlattenMapSeq(MapSeq(rs, (r: LinearRing) => r.elements), MapSeq(MapRings(rs, f), (r: LinearRing) => r.elements), f);
  }

  /** Mapping with `f` and then with a left inverse `h` of `f` gives back the geometry. */
  lemma {:induction false} ForEachPointInverse(g: Geometry, f: Point -> Point, h: Point -> Point)
    requires forall p :: h(f(p)) == p
    ensures ForEachPoint(ForEachPoint(g, f), h) == g
  {
    match g
    case Empty =>
    case PointGeometry(p) =>
    case MultiPoint(ps) =>
      MapSeqInverse(ps, f, h);
    case LineStringGeometry(l) =>
      MapSeqInverse(l.elements, f, h);
    case MultiLineString(ls) =>
      var ls' := ForEachPoint(g, f).lines;
      forall i | 0 <= i < |ls|
        ensures MapLine(ls'[i], h) == ls[i]
      {
        MapSeqInverse(ls[i].elements, f, h);
      }
    case Polygon(rs) =>
      RingsInverse(rs, f, h);
    case MultiPolygon(ps) =>
      forall i | 0 <= i < |ps|
        ensures MapRings(MapRings(ps[i], f), h) == ps[i]
      {
        RingsInverse(ps[i], f, h);
      }
    case GeometryCollection(gs) =>
      var gs' := ForEachPoint(g, f).members;
      forall i | 0 <= i < |gs|
        ensures ForEachPoint(gs'[i], h) == gs[i]
      {
        ForEachPointInverse(gs[i], f, h);
      }
  }

  lemma MapSeqInverse(ps: seq<Point>, f: Point -> Point, h: Point -> Point)
    requires forall p :: h(f(p)) == p
    ensures MapSeq(MapSeq(ps, f), h) == ps
  {
  }

  lemma RingsInverse(rs: seq<LinearRing>, f: Point -> Point, h: Point -> Point)
    requires forall p :: h(f(p)) == p
    ensures MapRings(MapRings(rs, f), h) == rs
  {
    forall i | 0 <= i < |rs|
      ensures MapRing(MapRing(rs[i], f), h) == rs[i]
    {
      MapSeqInverse(rs[i].elements, f, h);
    }
  }
}

=== FILE: wrap.dfy ===
/** World wrapping (src/wrap.rs): features reaching past the antimeridian
    margins are copied one world to the left or right, so a tile near the
    edge sees the geometry from across it. */
module Wrap {
  import opened Seqs
  import opened Types
  import opened SlabClip
  import opened ClipProps

  /** The point map `shift_coords` applies: `x` moves by `offset`. */
  function ShiftX(offset: real): Point -> Point
  {
    (p: Point) => p.(x := p.x + offset)
  }

  /** One feature of `shift_coords`: every point and both box corners move
      by `offset` in x; nothing else changes. */
  function ShiftFeature(f: Feature, offset: real): (r: Feature)
    ensures r.properties == f.properties && r.id == f.id && r.numPoints == f.numPoints
    ensures SameKind(f.geometry, r.geometry)
    ensures r.bbox.min == Point2D(f.bbox.min.x + offset, f.bbox.min.y)
    ensures r.bbox.max == Point2D(f.bbox.max.x + offset, f.bbox.max.y)
    ensures |Points(r.geometry)| == |Points(f.geometry)|
    ensures forall i :: 0 <= i < |Points(f.geometry)| ==>
      var p := Points(f.geometry)[i];
      Points(r.geometry)[i] == Point(p.x + offset, p.y, p.z)
  {
    ForEachPointPoints(f.geometry, ShiftX(offset));
    f.(geometry := ForEachPoint(f.geometry, ShiftX(offset)),
       bbox := BBox(Point2D(f.bbox.min.x + offset, f.bbox.min.y),
                    Point2D(f.bbox.max.x + offset, f.bbox.max.y)))
  }

  /** `shift_coords`: shifts every feature, keeping count and order. */
  function ShiftCoords(features: seq<Feature>, offset: real): (r: seq<Feature>)
    ensures |r| == |features|
    ensures forall i :: 0 <= i < |r| ==> r[i] == ShiftFeature(features[i], offset)
  {
    MapSeq(features, f => ShiftFeature(f, offset))
  }

  /** Shifting by `offset` and then by `-offset` gives back the features. */
  lemma ShiftCoordsInverse(features: seq<Feature>, offset: real)
    ensures ShiftCoords(ShiftCoords(features, offset), -offset) == features
  {
    forall i | 0 <= i < |features|
      ensures ShiftFeature(ShiftFeature(features[i], offset), -offset) == features[i]
    {
      ForEachPointInverse(features[i].geometry, ShiftX(offset), ShiftX(-offset));
    }
  }

  /** Every point of the feature lies within its box's x-extent. */
  predicate InsideBoxX(f: Feature)
  {
    forall p :: p in Points(f.geometry) ==> f.bbox.min.x <= p.x <= f.bbox.max.x
  }

  /** A point inside its feature's box in x is still inside after a shift. */
  lemma ShiftKeepsInsideBoxX(f: Feature, offset: real)
    requires InsideBoxX(f)
    ensures InsideBoxX(ShiftFeature(f, offset))
  {
    var r := ShiftFeature(f, offset);
    forall q | q in Points(r.geometry)
      ensures r.bbox.min.x <= q.x <= r.bbox.max.x
    {
      var i :| 0 <= i < |Points(r.geometry)| && Points(r.geometry)[i] == q;
      assert Points(f.geometry)[i] in Points(f.geometry);
    }
  }

  /** The left world copy: what reaches into [-1 - buffer, buffer). */
  function LeftCopy(features: seq<Feature>, buffer: real, lineMetrics: bool): seq<Feature>
    requires buffer >= -0.5
  {
    Clip(X, features, -1.0 - buffer, buffer, -1.0, 2.0, lineMetrics)
  }

  /** The right world copy: what reaches into [1 - buffer, 2 + buffer). */
  function RightCopy(features: seq<Feature>, buffer: real, lineMetrics: bool): seq<Feature>
    requires buffer >= -0.5
  {
    Clip(X, features, 1.0 - buffer, 2.0 + buffer, -1.0, 2.0, lineMetrics)
  }

  /** The centre copy: what lies in [-buffer, 1 + buffer). */
  function CenterCopy(features: seq<Feature>, buffer: real, lineMetrics: bool): seq<Feature>
    requires buffer >= -0.5
  {
    Clip(X, features, -buffer, 1.0 + buffer, -1.0, 2.0, lineMetrics)
  }

  /** `wrap`: the input itself when neither side copy holds anything;
      otherwise the left copy shifted right by one world, then the centre
      copy, then the right copy shifted left by one world. A buffer below
      -0.5 would turn the bands inside out. */
  function Wrap(features: seq<Feature>, buffer: real, lineMetrics: bool): (r: seq<Feature>)
    requires buffer >= -0.5
    ensures LeftCopy(features, buffer, lineMetrics) == [] && RightCopy(features, buffer, lineMetrics) == [] ==>
      r == features
    ensures LeftCopy(features, buffer, lineMetrics) != [] || RightCopy(features, buffer, lineMetrics) != [] ==>
      var left := LeftCopy(features, buffer, lineMetrics);
      var center := CenterCopy(features, buffer, lineMetrics);
      var right := RightCopy(features, buffer, lineMetrics);
      && |r| == |left| + |center| + |right|
      && r[..|left|] == ShiftCoords(left, 1.0)
      && r[|left|..|left| + |center|] == center
      && r[|left| + |center|..] == ShiftCoords(right, -1.0)
  {
    var left := LeftCopy(features, buffer, lineMetrics);
    var right := RightCopy(features, buffer, lineMetrics);
    if left == [] && right == [] then features
    else
      var merged := CenterCopy(features, buffer, lineMetrics);
      var merged := if left != [] then ShiftCoords(left, 1.0) + merged else merged;
      var merged := if right != [] then merged + ShiftCoords(right, -1.0) else merged;
      merged
  }

  /** For buffers between 0 and 1 none of the three world copies takes
      `clip`'s whole-set shortcut: each is decided feature by feature. */
  lemma WrapBandsNeverTrivial(buffer: real)
    requires 0.0 <= buffer <= 1.0
    ensures !Accepts(-1.0 - buffer, buffer, -1.0, 2.0) && !Rejects(-1.0 - buffer, buffer, -1.0, 2.0)
    ensures !Accepts(-buffer, 1.0 + buffer, -1.0, 2.0) && !Rejects(-buffer, 1.0 + buffer, -1.0, 2.0)
    ensures !Accepts(1.0 - buffer, 2.0 + buffer, -1.0, 2.0) && !Rejects(1.0 - buffer, 2.0 + buffer, -1.0, 2.0)
  {
  }

  /** Features whose boxes keep clear of both antimeridian margins are
      returned as they are. */
  lemma WrapInterior(features: seq<Feature>, buffer: real, lineMetrics: bool)
    requires 0.0 <= buffer
    requires forall i :: 0 <= i < |features| ==>
      buffer <= features[i].bbox.min.x <= features[i].bbox.max.x < 1.0 - buffer
    ensures Wrap(features, buffer, lineMetrics) == features
  {
    var cl := Clipper(X, -1.0 - buffer, buffer, lineMetrics);
    var cr := Clipper(X, 1.0 - buffer, 2.0 + buffer, lineMetrics);
    forall i | 0 <= i < |features|
      ensures DroppedWhole(cl, features[i]) && DroppedWhole(cr, features[i])
    {
    }
    if features != [] {
      assert buffer <= features[0].bbox.min.x <= features[0].bbox.max.x < 1.0 - buffer;
    }
    ClipFeaturesAllDropped(cl, features);
    ClipFeaturesAllDropped(cr, features);
  }
}
